=== FILE: README.md ===
# pysql core in Dafny

A model of the query engine of `pysql` (`ast.py`): a small, lazily
evaluated table engine. A `Schema` pairs an ordered list of column names
with a type per name. `Expression` trees (`Column`, `Length`, `Equal`,
`NotEqual`, `LessThan`) are typechecked bottom-up against a schema, with
each `Column` node caching the type it finds, and evaluated over a row
with three-valued logic: a null operand gives a null result.
`Transformation`s form a pipeline: `Load` turns stored text lines into typed
rows, `Filter` keeps the rows whose predicate is truthy, and `Select`
projects each row through named expressions under a derived schema.
`Action`s (`Count`, `Sum`, `Mean`, `Counter`, `Write`, `Collect`) pull a
pipeline's stream to the end and fold it into one result.

Modules, one per part of the engine:

- `Wrappers`: `Option`, `Result` and `Outcome` (pass, or fail with an error).
- `Text`: splitting a line on whitespace (`str.split()`), joining cells with
  tabs, and decimal integers (`int(token)` and `str(i)`).
- `Values`: `Type`, the tagged `Value` (`Null` is Python's `None`), rows,
  Python truthiness, `str()` rendering and the errors the engine raises.
- `Schemas`: `Schema.__init__` and the invariant every schema satisfies.
- `Expressions`: the `ColumnNode` class (the mutable `_type` cache), the
  expression tree, the typing judgement `Check`, the imperative
  `typecheck_all` pass proved against it, and `Eval` (`execute`).
- `Transformations`: `Load`, `Filter` and `Select`, their constructors and
  their streams. A stream is modelled by what a full pull of the generator
  observes: the rows produced, then the error, if any, raised where the
  next row would have been produced.
- `Actions`: the `compute` loops of `Count`, `Collect`, `Sum`, `Mean` and
  `Counter`, each proved against a specification function, and the
  constructors of `Sum` and `Mean`.
- `Writing`: `Write.compute` and the round trip from `Write` back to `Load`.

Main results:

- Type soundness: on a tree that typechecks against a schema and a row of
  that schema, `Eval` yields null or a value of the tree's type; every row
  any constructed pipeline yields belongs to its schema (`StreamOf`).
- The imperative `typecheck_all` succeeds exactly when `Check` does, fails
  with the same first error, and leaves every `Column` cache holding its
  schema type (`TypecheckAll`). `Check` here uses the corrected `<` rule
  (`LessThanRule`: both operands Int), not the rule as written at
  ast.py:160; see "## Findings".
- `Load` then `Write` then `Load` gives back the same schema and exactly
  the rows written (`WriteLoadRoundTrip`). This holds for the corrected
  Boolean parsing (`ParseCell`: exactly `True` and `False`); with
  `bool(value)` as written at ast.py:191 a written `False` reads back as
  true; see "## Findings".
- `Counter`'s counts are the multiplicities of the values and add up to
  the number of rows (`TallyCounts`, `TallyTotal`). The mean is the sum of
  the non-null values over their number, or `NaN` when there are none
  (`AverageOf`, `Mean`). This holds for the corrected `Mean`, which counts
  every non-null value; the loop as written at ast.py:297 also skips
  zeros; see "## Findings".

Two behaviours of the code that one might not expect are followed as
written:

- `Filter` keeps every row whose predicate is *truthy* (Python `if pred:`),
  for a predicate of any type. For a Boolean predicate that means exactly
  `True` (`BoolPredicateTruthy`).
- A data line with more tokens than the header is accepted and the extra
  tokens are ignored. A line with fewer tokens fails at its first cell that
  cannot be read; a missing token gives `MissingToken(j)` (Python's
  `IndexError`). There is no separate row-shape error.

The places where the model departs from the code are listed under
"## Findings".

## Model

| member | source | states |
|---|---|---|
| Text.Split | ast.py:178 | every piece produced by splitting a line is a non-empty run of non-whitespace characters |
| Text.SplitJoinTab | ast.py:350 | splitting a tab-joined line of tokens gives back exactly those tokens |
| Text.JoinTab | ast.py:340 | `'\t'.join(cells)`; `Text.SplitJoinTab` proves that `split()` undoes it on tokens |
| Text.RenderInt | ast.py:347 | `str(i)`: the result is non-empty and starts with `-` exactly when `i` is negative; `Text.ParseRenderInt` reads it back |
| Text.ParseInt | ast.py:189 | `int(token)`: only a non-empty token parses; `Text.ParseRenderInt` proves it inverts `str()` |
| Text.ParseRenderInt | ast.py:189 | `int(str(i)) == i` for every integer `i` |
| Text.RenderIntToken | ast.py:347 | a rendered integer is one token and never the null marker `NA` |
| Values.Truthy | ast.py:214 | Python truthiness of a cell: `0`, `""`, `False` and `None` are falsy; `Transformations.BoolPredicateTruthy` and `Actions.CountZeros` state what it means for `Filter` and `Mean` |
| Values.Render | ast.py:343-347 | `process`: an integer's rendering reads back as that integer, and every non-string rendering (`NA`, `True`, `False`, digits) is one token |
| Schemas.DistinctCardinality | ast.py:13 | a field list has as many distinct names as entries exactly when no name repeats |
| Schemas.NewSchema | ast.py:7-18 | the schema is built exactly when the mapping keys are the fields and the sizes agree; otherwise the first failing check raises: unmatched column, then the first untyped field, then a duplicate; a built schema keeps fields and mapping, and `types[i]` is the type of `fields[i]` |
| Schemas.RebuildSchema | ast.py:7-18 | a valid schema is rebuilt unchanged from its own fields and mapping |
| Expressions.ColumnNode.constructor | ast.py:58-61 | a new column node has its name and no cached type |
| Expressions.ColumnNode.Typecheck | ast.py:66-69 | passes exactly when the name is in the schema, then caches its type; on failure raises `UnknownColumn(name)` and leaves the cache alone |
| Expressions.LengthRule | ast.py:91-96 | `Length` typechecks exactly on a String operand, and is then of type Int |
| Expressions.EqualRule | ast.py:113-119 | `Equal` typechecks exactly on operands of the same type, and is then Bool |
| Expressions.NotEqualRule | ast.py:136-142 | `NotEqual` typechecks exactly on operands of the same type, and is then Bool |
| Expressions.LessThanRuleAsWritten | ast.py:159-162 | the written check refuses exactly a non-Int left operand beside an Int right one |
| Expressions.LessThanRule | ast.py:159-165 | `LessThan` typechecks exactly when both operands are Int, and is then Bool |
| Expressions.LessThanAsWrittenAdmitsNonInts | ast.py:160 | the written check accepts (Int, String), (String, String) and (Bool, Bool), all refused by the intended rule |
| Expressions.ColumnNode.ResultType | ast.py:71-73 | `type()` of a column is its cached type; `Expressions.ResultTypeAgrees` proves it is the schema's type after typechecking |
| Expressions.ResultType | ast.py:71-165 | `type()` of any node: the cache for a column, `Int` for `Length`, `Bool` for comparisons |
| Expressions.ResultTypeAgrees | ast.py:71-165 | once a tree's caches are filled, `type()` of its root is the type `Check` gives it |
| Expressions.Check | ast.py:31-35 | a typechecked `Length` is Int and a typechecked comparison is Bool |
| Expressions.TypingRules | ast.py:66-165 | node by node: when each kind of node typechecks and what a column reports or raises |
| Expressions.FirstFailure | ast.py:31-35 | children are checked in order and the first failing child's error is the tree's error |
| Expressions.TypecheckNode | ast.py:66-162 | one node's `typecheck`, reading its children's cached types, passes exactly when `Check` does, with the same error, and caches a column's type |
| Expressions.TypecheckAll | ast.py:31-35 | the recursive pass passes exactly when `Check` succeeds, fails with `Check`'s error, and on success every column cache holds its schema type and the root's `type()` is `Check`'s type |
| Expressions.Eval | ast.py:63-157 | on a typechecked tree and a conforming row the result is null or a value of the tree's type |
| Expressions.NullPropagation | ast.py:84-157 | an operator node is null exactly when an operand is; otherwise it is the length, `==`, `!=` or `<` of its operands |
| Transformations.ParseCellAsWritten | ast.py:185-194 | as written, a Bool cell is true for every non-empty token |
| Transformations.ParseCell | ast.py:185-194 | a parsed cell has its column's type; String cells are the raw token; Bool cells parse exactly from `True` and `False`; Int cells exactly from decimal integers |
| Transformations.BoolParseAsWrittenInverts | ast.py:191 | the rendering `False` is read back as true by `bool(token)` and as false by the explicit grammar |
| Transformations.ParseRenderCell | ast.py:185-194 | every non-null value (strings: single tokens other than `NA`) is read back from its rendering |
| Transformations.CellAt | ast.py:183-194 | a read cell fits its column's type; a missing token fails with `MissingToken(j)` |
| Transformations.ParseRow | ast.py:179-194 | the `row` dictionary the inner column loop of `Load.stream` fills, or the first cell error; `ParseRowOk`, `ParseRowKeys`, `ParseRowAt` and `ParseRowFails` state its properties and `ReadRow` is proved against it |
| Transformations.ParseRowOk | ast.py:180-194 | a line's row is read exactly when each of its cells is |
| Transformations.ParseRowKeys | ast.py:179-195 | a read row has exactly the schema's fields as keys |
| Transformations.ParseRowAt | ast.py:183-195 | in a read row each field is bound to the value of its own cell |
| Transformations.ParseRowFails | ast.py:180-194 | the first cell that cannot be read is the error of the whole line |
| Transformations.ParsedRowConforms | ast.py:174-195 | a read row belongs to the schema |
| Transformations.LoadFrom | ast.py:174-195 | `Load.stream` from line `i` on yields at most one row per remaining line; its rows and its ending error are stated by `LoadFromRow` and `LoadFromEnd` |
| Transformations.LoadFromRow | ast.py:174-195 | row `k` of the stream is what data line `k` reads as: one row per line, in line order |
| Transformations.LoadFromEnd | ast.py:174-195 | the stream stops only at a line that cannot be read, whose error ends it; without a failure every data line gives a row |
| Transformations.LoadConforms | ast.py:174-195 | every row `Load` yields belongs to its schema |
| Transformations.NewLoad | ast.py:168-171 | no lines: no header; otherwise the header's tokens must match the mapping as `Schema` demands, and a mismatch raises `Schema`'s own error; the schema's fields are the header tokens |
| Transformations.ReadRow | ast.py:179-194 | the inner loop over the columns reads the line's row or its first cell error |
| Transformations.StreamLoad | ast.py:174-195 | the nested loops produce exactly the stream `LoadFrom` describes |
| Transformations.FilterRows | ast.py:210-215 | the kept rows are at most the base rows, all of them base rows, and of the base schema |
| Transformations.BoolPredicateTruthy | ast.py:214 | for a Boolean predicate a row is kept exactly when the predicate is `True`; null and `False` drop it |
| Transformations.FilterRowsMembers | ast.py:210-215 | a row is kept exactly when it is a base row on which the predicate is truthy |
| Transformations.ConformAppend | ast.py:210-215 | two runs of rows of a schema together are rows of that schema |
| Transformations.FilterRowsAppend | ast.py:210-215 | filtering keeps base order: filtering two runs of rows is filtering each in turn |
| Transformations.NewFilter | ast.py:201-208 | construction succeeds exactly when the predicate typechecks against the base schema, with `Check`'s error otherwise |
| Transformations.Names | ast.py:228-229 | the new field list holds the selection names in order |
| Transformations.SelectTypes | ast.py:228-231 | the types the loop of `Select.__init__` records in `new_mapping` while it appends each name to `new_fields`; `SelectTypesOk`, `SelectTypesKeys` and `SelectTypesAt` state its outcome |
| Transformations.SelectTypesStep | ast.py:228-231 | one more selection appends its name and binds its type |
| Transformations.SelectTypesFails | ast.py:228-231 | the first selection that fails to typecheck is the error of the loop |
| Transformations.SelectTypesOk | ast.py:228-231 | the loop succeeds exactly when every selection typechecks |
| Transformations.SelectTypesKeys | ast.py:228-231 | on success the types dictionary's keys are the selection names |
| Transformations.SelectTypesAt | ast.py:228-231 | a name whose last selection is `k` holds the type of selection `k` |
| Transformations.DeriveSchema | ast.py:228-233 | `Schema(new_fields, new_mapping)` in `Select.__init__`, after the types loop; `DeriveSchemaShape` states when it exists and what it holds, and `NewSelect` is proved against it |
| Transformations.DeriveSchemaShape | ast.py:222-233 | the derived schema exists exactly when every expression typechecks and no name repeats; its fields are the names in order, each typed by its expression |
| Transformations.Assign | ast.py:240-242 | the filled dictionary's keys are the assigned names |
| Transformations.AssignAt | ast.py:241-242 | a name holds the value of its last assignment |
| Transformations.Evaluate | ast.py:241-242 | one value per selection, each its expression's value on the row |
| Transformations.Project | ast.py:240-242 | a projected row's keys are exactly the selection names |
| Transformations.SelectRows | ast.py:238-244 | one projected row per base row, in order |
| Transformations.ProjectConforms | ast.py:238-244 | a projected row belongs to the derived schema |
| Transformations.SelectConforms | ast.py:238-244 | every row `Select` yields belongs to the derived schema |
| Transformations.TypecheckSelection | ast.py:228-231 | one pass of the loop: `typecheck_all` on one selection passes exactly when `Check` does, fails with its error, and on success leaves the caches of this and every earlier selection holding their schema types |
| Transformations.NewSelect | ast.py:222-236 | the constructor's loop succeeds exactly when the derived schema exists, fails with the same first error, the result is well formed, and on success every selection's `Column` caches hold their base-schema types |
| Transformations.SchemaOf | ast.py:197-198 | `schema()` of a transformation; `SchemaOfUnfiltered` and `SchemaOfValid` state what it is |
| Transformations.SchemaOfUnfiltered | ast.py:217-218 | a pipeline's schema is the one its last `Load` or `Select` stage set up (ast.py:197-198, 246-247): `Filter` passes its base's through |
| Transformations.SchemaOfValid | ast.py:197-218 | every constructed transformation's schema satisfies the schema invariant |
| Transformations.StreamOf | ast.py:174-244 | every row any constructed pipeline yields belongs to its schema |
| Transformations.FilterStream | ast.py:210-218 | `Filter` keeps its base's schema, yields the base rows whose predicate is truthy, and ends with the base's error |
| Transformations.SelectRowsAt | ast.py:238-244 | row `k` of a projection binds each name to its expression's value on base row `k` |
| Transformations.SelectStream | ast.py:233-244 | `Select`'s fields are the distinct names, it yields one projected row per base row and ends with the base's error |
| Actions.Count | ast.py:256-260 | the result is the number of rows, or the stream's error |
| Actions.Collect | ast.py:363-367 | the result is the rows in stream order, or the stream's error |
| Actions.SumInts | ast.py:273-279 | the sum of the integer values, nulls adding nothing; `SumIntsAppend` and `SumIntsNulls` state its properties and `Sum` is proved against it |
| Actions.SumIntsAppend | ast.py:273-279 | summing is additive over concatenated streams |
| Actions.SumIntsNulls | ast.py:273-279 | a stream of nulls sums to zero |
| Actions.NewSum | ast.py:264-271 | construction succeeds exactly when the expression typechecks as Int; a type error raises `Check`'s error, another type `SumNeedsInt`; whenever the expression typechecks its `Column` caches hold their schema types |
| Actions.Sum | ast.py:273-279 | the loop, which skips every falsy element, returns the sum of the non-null values, or the stream's error |
| Actions.AverageOf | ast.py:292-303 | the mean is `NaN` or a ratio with a positive count |
| Actions.AverageAsWritten | ast.py:292-303 | as written, the count is of truthy values only |
| Actions.CountZeros | ast.py:297-299 | among integers and nulls, the non-null values are the truthy ones plus the zeros |
| Actions.AverageAsWrittenAgrees | ast.py:297-303 | the written (total, count) pair is exactly the pair of the non-null values when no value is `0`, and only then |
| Actions.AverageAsWrittenSameMean | ast.py:297-303 | compared as numbers (by cross-multiplication), the written mean equals the mean of the non-null values exactly when no value is `0`, or the total is `0` and some value is truthy |
| Actions.AverageAsWrittenCounterexample | ast.py:297-303 | on the values 0 and 2 the written mean is 2/1, the mean of the values 2/2 |
| Actions.NewMean | ast.py:283-290 | construction succeeds exactly when the expression typechecks as Int; a type error raises `Check`'s error, another type `MeanNeedsInt`; whenever the expression typechecks its `Column` caches hold their schema types |
| Actions.Mean | ast.py:292-303 | the loop returns the total and the count of the non-null values, `NaN` when there are none, or the stream's error |
| Actions.Tally | ast.py:315-323 | the dictionary the `Counter` loop builds; `TallyCounts` and `TallyTotal` state what it holds |
| Actions.TallyStep | ast.py:319-322 | one more value raises its count by one or enters it with count one |
| Actions.TallyCounts | ast.py:315-323 | the dictionary's keys are exactly the values seen, each mapped to how often it occurs |
| Actions.TotalCountRemove | ast.py:315-323 | a count can be taken out of the total of a dictionary first |
| Actions.TallyTotal | ast.py:315-323 | the counts add up to the number of values counted |
| Actions.Counter | ast.py:315-323 | the loop returns the tally of the values, null included, or the stream's error |
| Writing.RenderRow | ast.py:343-350 | a data line has one cell per field |
| Writing.Dump | ast.py:339-351 | the header line joins the fields; line `k + 1` joins the rendered cells of row `k` |
| Writing.Write | ast.py:339-351 | the loop writes the header and then a line per row, stopping at the stream's error |
| Writing.ParsedRowPlain | ast.py:185-194 | a row read from a line holds only single-token strings other than `NA` |
| Writing.EvalPlain | ast.py:63-157 | on a row of plain strings, evaluation yields a plain value |
| Writing.AssignPlain | ast.py:240-242 | a row filled from such strings holds only such strings |
| Writing.LoadPlain | ast.py:174-195 | every string `Load` yields is a single token other than `NA` |
| Writing.FilterPlain | ast.py:210-215 | `Filter` yields only rows of its base, so such strings stay such strings |
| Writing.SelectPlain | ast.py:238-244 | `Select` on such rows yields only such strings |
| Writing.StreamPlain | ast.py:174-244 | every string any constructed pipeline yields is a single token other than `NA` |
| Writing.RenderedCells | ast.py:343-347 | each rendered cell of such a row is a token that is read back as its value |
| Writing.ParseCellsOfRow | ast.py:179-195 | a line whose cells read back as a row's values is read as that row |
| Writing.RowRoundTrip | ast.py:349-350 | a written data line is read back as the row it came from |
| Writing.LoadReadable | ast.py:174-195 | lines whose data lines each read back as a row load, from line `i` on, as the rows from `i - 1` on, with no error |
| Writing.WriteLoadRoundTrip | ast.py:339-351 | loading what `Write` wrote, with the same mapping, is accepted with the same schema and yields exactly the rows written |

## Left out

- File and console I/O: `Load` takes the lines already read from the file (each with its line break removed) and `Write` produces the lines it would write. The `stdout` sink and closing the file are not modelled.
- `Load` reading its file with `strip()` per line: the model's `Split` already ignores leading and trailing whitespace, which is what `strip().split()` gives.
- Python string and integer library details: `Split` treats space, tab, line feed, carriage return, vertical tab and form feed as whitespace (not the other Unicode spaces), and `ParseInt` accepts an optional sign and ASCII digits (not underscores, surrounding whitespace or other Unicode digits). `Length` counts characters.
- Actions.Mean: returns the exact total and count instead of the floating-point quotient `float(x) / n`, and `NaN` as a tag, so float rounding is not modelled.
- Generator laziness and restarting: a stream is modelled by a full pull, the rows produced and then the error. Interleaving with a consumer that stops early is not modelled.
- The `isinstance` assertions in the constructors: Dafny's types already rule out what they reject.
- `Schema`'s unmatched-column message names the offending key; `UnmatchedColumn` does not, because it depends on the dictionary's iteration order.
- Python 2 cross-type comparison: `Equal` on two values of different kinds cannot arise after typechecking, so it is not modelled separately.
- The constructors of `Count`, `Collect` and `Write` only check argument classes; `Counter`'s constructor is `TypecheckAll` on the base schema.
- `Schema` as an object with the `schema()` accessor: `SchemaOf` reads it from the transformation.
- `tests.py` is not part of this model.

## Findings

| source | as written | input that shows it | evidently intended | confidence | as-written member | corrected member |
|---|---|---|---|---|---|---|
| ast.py:160 | `not left == Int and right == Int` refuses only a non-Int left operand beside an Int right one | `LessThan` of an Int and a String column, or of two String columns, typechecks although `<` is meant only for integers (Int against String compares unlike values) | both operands must be Int | high (not executed) | Expressions.LessThanAsWrittenAdmitsNonInts | Expressions.LessThanRule |
| ast.py:297 | `if element:` skips `0` as well as null, so zeros are left out of the count | the values 0 and 2: mean 2.0 instead of 1.0 | count every non-null value | high (not executed) | Actions.AverageAsWrittenCounterexample | Actions.Mean |
| ast.py:191 | `bool(value)` is true for every non-empty token | the token `False`, which `Write` renders for a false cell, is read back as true | parse exactly `True` and `False` | high (not executed) | Transformations.BoolParseAsWrittenInverts | Transformations.ParseCell |

The same `if element:` test in `Sum` (ast.py:277) does not change the
result, since skipping a zero adds nothing; `Actions.Sum` models that loop
as written and proves it returns the sum of the non-null values.

=== FILE: actions.dfy ===
/**
 * Actions: the terminal operations. Each `compute` pulls its base
 * transformation's stream (`StreamOf(base)`, passed in as `st`) to the end
 * and folds the rows into one result; when the stream ends with an error,
 * the action raises that error instead of returning.
 */
module Actions {
  import opened Wrappers
  import opened Values
  import opened Schemas
  import opened Expressions
  import opened Transformations

  /** What pulling `st` to the end gives: `value` when it ran dry, its error otherwise. */
  function Finish<T>(st: Stream, value: T): Result<T, Error>
  {
    if st.failure.Some? then Err(st.failure.value) else Ok(value)
  }

  /** The value of `e` on each row, in stream order. */
  function Evaluations(rows: seq<Row>, e: Expr, ghost s: Schema): seq<Value>
    requires Check(e, s).Ok? && AllConform(rows, s)
  {
    seq(|rows|, k requires 0 <= k < |rows| => Eval(e, rows[k], s))
  }

  /** Every value is an integer or null: what an `Int` expression yields. */
  predicate IntsOrNull(vals: seq<Value>) {
    forall k :: 0 <= k < |vals| ==> Fits(vals[k], IntType)
  }

  // ----- Count and Collect -----

  /** `Count.compute`: one tick per row pulled. */
  method Count(st: Stream) returns (r: Result<nat, Error>)
    ensures r.Ok? <==> st.failure.None?
    ensures r.Ok? ==> r.value == |st.rows|
    ensures r.Err? ==> r.error == st.failure.value
  {
    var elems := 0;
    for k := 0 to |st.rows|
      invariant elems == k
    {
      elems := elems + 1;
    }
    r := Finish(st, elems);
  }

  /** `Collect.compute`: every row pulled, in stream order. */
  method Collect(st: Stream) returns (r: Result<seq<Row>, Error>)
    ensures r.Ok? <==> st.failure.None?
    ensures r.Ok? ==> r.value == st.rows
    ensures r.Err? ==> r.error == st.failure.value
  {
    var rows: seq<Row> := [];
    for k := 0 to |st.rows|
      invariant rows == st.rows[..k]
    {
      rows := rows + [st.rows[k]];
    }
    assert rows == st.rows;
    r := Finish(st, rows);
  }

  // ----- Sum -----

  /** The sum of the non-null integers among `vals`; nulls contribute nothing. */
  function SumInts(vals: seq<Value>): int
    decreases |vals|
  {
    if |vals| == 0 then 0
    else
      var last := vals[|vals| - 1];
      SumInts(vals[..|vals| - 1]) + (if last.Int? then last.i else 0)
  }

  /** Summing is additive over concatenation. */
  lemma {:induction false} SumIntsAppend(a: seq<Value>, b: seq<Value>)
    ensures SumInts(a + b) == SumInts(a) + SumInts(b)
    decreases |b|
  {
    if |b| > 0 {
      var last := |b| - 1;
      assert (a + b)[..|a + b| - 1] == a + b[..last];
      assert (a + b)[|a + b| - 1] == b[last];
      SumIntsAppend(a, b[..last]);
    } else {
      assert a + b == a;
    }
  }

  /** A stream of nulls sums to zero. */
  lemma {:induction false} SumIntsNulls(vals: seq<Value>)
    requires forall k :: 0 <= k < |vals| ==> vals[k].Null?
    ensures SumInts(vals) == 0
    decreases |vals|
  {
    if |vals| > 0 {
      SumIntsNulls(vals[..|vals| - 1]);
    }
  }

  /**
   * `Sum(base, expr)`: the expression is typechecked against the base schema
   * and must be of type `Int`.
   */
  method NewSum(base: Transformation, e: Expr) returns (r: Outcome<Error>)
    modifies Nodes(e)
    ensures r.Pass? <==> Check(e, SchemaOf(base)) == Ok(IntType)
    ensures Check(e, SchemaOf(base)).Err? ==> r == Fail(Check(e, SchemaOf(base)).error)
    ensures Check(e, SchemaOf(base)).Ok? && Check(e, SchemaOf(base)).value != IntType ==>
      r == Fail(SumNeedsInt(Check(e, SchemaOf(base)).value))
    ensures Check(e, SchemaOf(base)).Ok? ==> Cached(e, SchemaOf(base))
  {
    r := TypecheckAll(e, SchemaOf(base));
    if r.Fail? {
      return;
    }
    var t := ResultType(e);
    if t != IntType {
      r := Fail(SumNeedsInt(t));
    }
  }

  /**
   * `Sum.compute`: the loop skips every falsy element, which drops `0`
   * along with null; the total is still the sum of the non-null values.
   */
  method Sum(st: Stream, e: Expr, ghost s: Schema) returns (r: Result<int, Error>)
    requires AllConform(st.rows, s) && Check(e, s) == Ok(IntType)
    ensures r.Ok? <==> st.failure.None?
    ensures r.Ok? ==> r.value == SumInts(Evaluations(st.rows, e, s))
    ensures r.Err? ==> r.error == st.failure.value
  {
    ghost var vals := Evaluations(st.rows, e, s);
    var x := 0;
    for k := 0 to |st.rows|
      invariant x == SumInts(vals[..k])
    {
      var element := Eval(e, st.rows[k], s);
      assert vals[..k + 1][..k] == vals[..k] && vals[k] == element;
      if Truthy(element) {
        x := x + element.i;
      }
    }
    assert vals[..|st.rows|] == vals;
    r := Finish(st, x);
  }

  // ----- Mean -----

  /** The mean as an exact fraction; `NaN` when no value was counted. */
  datatype Average = NaN | Ratio(total: int, count: nat)

  /** How many values are not null. */
  function CountNonNull(vals: seq<Value>): (n: nat)
    ensures n <= |vals|
    decreases |vals|
  {
    if |vals| == 0 then 0
    else CountNonNull(vals[..|vals| - 1]) + (if vals[|vals| - 1].Null? then 0 else 1)
  }

  /** How many values are truthy. */
  function CountTruthy(vals: seq<Value>): (n: nat)
    ensures n <= |vals|
    decreases |vals|
  {
    if |vals| == 0 then 0
    else CountTruthy(vals[..|vals| - 1]) + (if Truthy(vals[|vals| - 1]) then 1 else 0)
  }

  /** The mean of the non-null values. */
  function AverageOf(vals: seq<Value>): (a: Average)
    ensures a.Ratio? ==> a.count > 0
  {
    var n := CountNonNull(vals);
    if n == 0 then NaN else Ratio(SumInts(vals), n)
  }

  /**
   * The mean as `Mean.compute` writes it: the divisor counts only truthy
   * values, so every `0` is left out of the count though not of the total.
   */
  function AverageAsWritten(vals: seq<Value>): (a: Average)
    ensures a.Ratio? ==> a.count > 0
  {
    var n := CountTruthy(vals);
    if n == 0 then NaN else Ratio(SumInts(vals), n)
  }

  /** Among integers and nulls, the non-null values are the truthy ones plus the zeros. */
  lemma {:induction false} CountZeros(vals: seq<Value>)
    requires IntsOrNull(vals)
    ensures CountNonNull(vals) == CountTruthy(vals) + multiset(vals)[Int(0)]
    decreases |vals|
  {
    if |vals| > 0 {
      var init := vals[..|vals| - 1];
      assert vals == init + [vals[|vals| - 1]];
      CountZeros(init);
    }
  }

  /**
   * The written (total, count) pair is exactly the pair of the non-null
   * values when no value is `0`, and only then.
   */
  lemma AverageAsWrittenAgrees(vals: seq<Value>)
    requires IntsOrNull(vals)
    ensures AverageAsWritten(vals) == AverageOf(vals) <==> Int(0) !in vals
  {
    CountZeros(vals);
  }

  /** Two averages denote the same number: both `NaN`, or equal fractions. */
  predicate SameMean(a: Average, b: Average) {
    || (a.NaN? && b.NaN?)
    || (a.Ratio? && b.Ratio? && a.total * b.count == b.total * a.count)
  }

  /**
   * The written mean is the same number as the mean of the non-null values
   * exactly when no value is `0`, or when the total is `0` and some value
   * was counted as written (a list of only zeros and nulls gives `NaN` as
   * written, but `0.0` as intended).
   */
  lemma AverageAsWrittenSameMean(vals: seq<Value>)
    requires IntsOrNull(vals)
    ensures SameMean(AverageAsWritten(vals), AverageOf(vals))
      <==> Int(0) !in vals || (SumInts(vals) == 0 && CountTruthy(vals) > 0)
  {
    CountZeros(vals);
    var total, t, z := SumInts(vals), CountTruthy(vals), multiset(vals)[Int(0)];
    if z == 0 {
      assert AverageAsWritten(vals) == AverageOf(vals);
    } else if t == 0 {
      assert AverageAsWritten(vals) == NaN && AverageOf(vals) == Ratio(total, z);
    } else {
      assert AverageAsWritten(vals) == Ratio(total, t) && AverageOf(vals) == Ratio(total, t + z);
      ScaledCounts(total, t, z);
    }
  }

  /** Adding `z > 0` to a count changes `total * count` exactly when the total is not `0`. */
  lemma ScaledCounts(total: int, t: nat, z: nat)
    requires z > 0
    ensures total * t == total * (t + z) <==> total == 0
  {
    assert total * (t + z) == total * t + total * z;
    if total != 0 {
      assert total * z != 0;
    }
  }

  /** The values `0` and `2`: the written mean is `2.0`, the mean of the values is `1.0`. */
  lemma AverageAsWrittenCounterexample()
    ensures AverageAsWritten([Int(0), Int(2)]) == Ratio(2, 1)
    ensures AverageOf([Int(0), Int(2)]) == Ratio(2, 2)
  {
    assert [Int(0), Int(2)][..1] == [Int(0)];
    assert [Int(0)][..0] == [];
  }

  /**
   * `Mean(base, expr)`: the expression is typechecked against the base schema
   * and must be of type `Int`.
   */
  method NewMean(base: Transformation, e: Expr) returns (r: Outcome<Error>)
    modifies Nodes(e)
    ensures r.Pass? <==> Check(e, SchemaOf(base)) == Ok(IntType)
    ensures Check(e, SchemaOf(base)).Err? ==> r == Fail(Check(e, SchemaOf(base)).error)
    ensures Check(e, SchemaOf(base)).Ok? && Check(e, SchemaOf(base)).value != IntType ==>
      r == Fail(MeanNeedsInt(Check(e, SchemaOf(base)).value))
    ensures Check(e, SchemaOf(base)).Ok? ==> Cached(e, SchemaOf(base))
  {
    r := TypecheckAll(e, SchemaOf(base));
    if r.Fail? {
      return;
    }
    var t := ResultType(e);
    if t != IntType {
      r := Fail(MeanNeedsInt(t));
    }
  }

  /**
   * `Mean.compute`, counting every non-null element: the total and the
   * count of the non-null values, or `NaN` when there are none.
   */
  method Mean(st: Stream, e: Expr, ghost s: Schema) returns (r: Result<Average, Error>)
    requires AllConform(st.rows, s) && Check(e, s) == Ok(IntType)
    ensures r.Ok? <==> st.failure.None?
    ensures r.Ok? ==> r.value == AverageOf(Evaluations(st.rows, e, s))
    ensures r.Err? ==> r.error == st.failure.value
  {
    ghost var vals := Evaluations(st.rows, e, s);
    var x := 0;
    var n := 0;
    for k := 0 to |st.rows|
      invariant x == SumInts(vals[..k]) && n == CountNonNull(vals[..k])
    {
      var element := Eval(e, st.rows[k], s);
      assert vals[..k + 1][..k] == vals[..k];
      if !element.Null? {
        x := x + element.i;
        n := n + 1;
      }
    }
    assert vals[..|st.rows|] == vals;
    r := Finish(st, if n > 0 then Ratio(x, n) else NaN);
  }

  // ----- Counter -----

  /** The dictionary `Counter.compute` fills: each distinct value with how often it occurs. */
  function Tally(vals: seq<Value>): map<Value, nat>
    decreases |vals|
  {
    if |vals| == 0 then map[]
    else
      var d := Tally(vals[..|vals| - 1]);
      var v := vals[|vals| - 1];
      if v in d then d[v := d[v] + 1] else d[v := 1]
  }

  /** One more value: its count goes up by one, or it enters with count one. */
  lemma TallyStep(vals: seq<Value>, k: nat)
    requires k < |vals|
    ensures vals[k] in Tally(vals[..k]) ==>
      Tally(vals[..k + 1]) == Tally(vals[..k])[vals[k] := Tally(vals[..k])[vals[k]] + 1]
    ensures vals[k] !in Tally(vals[..k]) ==> Tally(vals[..k + 1]) == Tally(vals[..k])[vals[k] := 1]
  {
    assert vals[..k + 1][..k] == vals[..k];
  }

  /** The tally's keys are exactly the values seen, each counted as often as it occurs. */
  lemma {:induction false} TallyCounts(vals: seq<Value>)
    ensures Tally(vals).Keys == set v | v in vals
    ensures forall v :: v in Tally(vals) ==> Tally(vals)[v] == multiset(vals)[v]
    decreases |vals|
  {
    if |vals| > 0 {
      var init := vals[..|vals| - 1];
      var last := vals[|vals| - 1];
      assert vals == init + [last];
      TallyCounts(init);
      assert multiset(vals) == multiset(init) + multiset{last};
    }
  }

  /** Some key of a non-empty tally. */
  ghost function AnyKey(d: map<Value, nat>): (v: Value)
    requires |d| > 0
    ensures v in d
  {
    var v :| v in d; v
  }

  /** The sum of all counts in a tally. */
  ghost function TotalCount(d: map<Value, nat>): nat
    decreases |d|
  {
    if |d| == 0 then 0 else d[AnyKey(d)] + TotalCount(d - {AnyKey(d)})
  }

  /** Any one entry can be taken out of the total first. */
  lemma {:induction false} TotalCountRemove(d: map<Value, nat>, v: Value)
    requires v in d
    ensures TotalCount(d) == d[v] + TotalCount(d - {v})
    decreases |d|
  {
    var u := AnyKey(d);
    if u != v {
      assert (d - {u})[v] == d[v] && (d - {v})[u] == d[u];
      TotalCountRemove(d - {u}, v);
      TotalCountRemove(d - {v}, u);
      assert d - {u} - {v} == d - {v} - {u};
    }
  }

  /** The counts of a tally add up to the number of values counted. */
  lemma {:induction false} TallyTotal(vals: seq<Value>)
    ensures TotalCount(Tally(vals)) == |vals|
    decreases |vals|
  {
    if |vals| > 0 {
      var init := vals[..|vals| - 1];
      var v := vals[|vals| - 1];
      var d := Tally(init);
      TallyTotal(init);
      var d' := Tally(vals);
      assert d' - {v} == d - {v};
      TotalCountRemove(d', v);
      if v in d {
        TotalCountRemove(d, v);
      } else {
        assert d - {v} == d;
      }
    }
  }

  /** `Counter.compute`: a dictionary of how often each value of `e` occurs; null is counted too. */
  method Counter(st: Stream, e: Expr, ghost s: Schema) returns (r: Result<map<Value, nat>, Error>)
    requires AllConform(st.rows, s) && Check(e, s).Ok?
    ensures r.Ok? <==> st.failure.None?
    ensures r.Ok? ==> r.value == Tally(Evaluations(st.rows, e, s))
    ensures r.Err? ==> r.error == st.failure.value
  {
    ghost var vals := Evaluations(st.rows, e, s);
    var d: map<Value, nat> := map[];
    for k := 0 to |st.rows|
      invariant d == Tally(vals[..k])
    {
      var element := Eval(e, st.rows[k], s);
      TallyStep(vals, k);
      assert vals[k] == element;
      if element in d {
        d := d[element := d[element] + 1];
      } else {
        d := d[element := 1];
      }
    }
    assert vals[..|st.rows|] == vals;
    r := Finish(st, d);
  }
}

=== FILE: expressions.dfy ===
/**
 * The typed expression tree: column references, string length, equality,
 * inequality and less-than, with the bottom-up typecheck pass that caches a
 * type on each `Column` node and the three-valued evaluation over a row.
 */
module Expressions {
  import opened Wrappers
  import opened Values
  import opened Schemas

  /** A `Column` node: its name and the type cache that typechecking fills in. */
  class ColumnNode {
    const name: string
    var cachedType: Option<Type>

    constructor (name: string)
      ensures this.name == name && cachedType == None
    {
      this.name := name;
      cachedType := None;
    }

    /** `Column.typecheck`: fails on a name the schema lacks, else caches its type. */
    method Typecheck(s: Schema) returns (r: Outcome<Error>)
      modifies this
      ensures r.Pass? <==> name in s.mapping
      ensures r.Fail? ==> r.error == UnknownColumn(name) && cachedType == old(cachedType)
      ensures r.Pass? ==> cachedType == Some(s.mapping[name])
    {
      if name !in s.mapping {
        return Fail(UnknownColumn(name));
      }
      cachedType := Some(s.mapping[name]);
      r := Pass;
    }

    /** `Column.type()`: the cached type; asking before typechecking is an error. */
    function ResultType(): Type
      reads this
      requires cachedType.Some?
    {
      cachedType.value
    }
  }

  datatype Expr =
    | Column(node: ColumnNode)
    | Length(base: Expr)
    | Equal(left: Expr, right: Expr)
    | NotEqual(left: Expr, right: Expr)
    | LessThan(left: Expr, right: Expr)

  /** The `children` list each node passes to the base constructor. */
  function Children(e: Expr): (kids: seq<Expr>)
    ensures forall k :: 0 <= k < |kids| ==> kids[k] < e
  {
    match e
    case Column(_) => []
    case Length(b) => [b]
    case Equal(l, r) => [l, r]
    case NotEqual(l, r) => [l, r]
    case LessThan(l, r) => [l, r]
  }

  /** The `Column` objects of a tree: what typechecking may update. */
  function Nodes(e: Expr): set<ColumnNode>
  {
    match e
    case Column(c) => {c}
    case Length(b) => Nodes(b)
    case Equal(l, r) => Nodes(l) + Nodes(r)
    case NotEqual(l, r) => Nodes(l) + Nodes(r)
    case LessThan(l, r) => Nodes(l) + Nodes(r)
  }

  // ----- the typing rule of each node (its `typecheck` and `type()`) -----

  function LengthRule(operand: Type): (r: Result<Type, Error>)
    ensures r.Ok? <==> operand == StringType
    ensures r.Ok? ==> r.value == IntType
  {
    if operand == StringType then Ok(IntType) else Err(LengthNeedsString(operand))
  }

  function EqualRule(left: Type, right: Type): (r: Result<Type, Error>)
    ensures r.Ok? <==> left == right
    ensures r.Ok? ==> r.value == BoolType
  {
    if left == right then Ok(BoolType) else Err(EqualNeedsSameTypes(left, right))
  }

  function NotEqualRule(left: Type, right: Type): (r: Result<Type, Error>)
    ensures r.Ok? <==> left == right
    ensures r.Ok? ==> r.value == BoolType
  {
    if left == right then Ok(BoolType) else Err(NotEqualNeedsSameTypes(left, right))
  }

  /**
   * The `LessThan` check as the source writes it: `not` binds tighter than
   * `and`, so only a non-Int left operand next to an Int right one is refused.
   */
  function LessThanRuleAsWritten(left: Type, right: Type): (r: Result<Type, Error>)
    ensures r.Err? <==> left != IntType && right == IntType
  {
    if left != IntType && right == IntType then Err(LessThanNeedsInts(left, right))
    else Ok(BoolType)
  }

  /** The intended `LessThan` check: both operands must be Int. */
  function LessThanRule(left: Type, right: Type): (r: Result<Type, Error>)
    ensures r.Ok? <==> left == IntType && right == IntType
    ensures r.Ok? ==> r.value == BoolType
  {
    if left == IntType && right == IntType then Ok(BoolType)
    else Err(LessThanNeedsInts(left, right))
  }

  /** The written rule accepts operand pairs that are not both Int, which the intended rule refuses. */
  lemma LessThanAsWrittenAdmitsNonInts()
    ensures LessThanRuleAsWritten(IntType, StringType).Ok? && LessThanRule(IntType, StringType).Err?
    ensures LessThanRuleAsWritten(StringType, StringType).Ok? && LessThanRule(StringType, StringType).Err?
    ensures LessThanRuleAsWritten(BoolType, BoolType).Ok? && LessThanRule(BoolType, BoolType).Err?
  {
  }

  /**
   * The outcome of the bottom-up pass `typecheck_all` against schema `s`:
   * children first, left before right, the first failure is raised; on
   * success, the type the root node then reports.
   */
  function Check(e: Expr, s: Schema): (r: Result<Type, Error>)
    ensures r.Ok? && e.Length? ==> r.value == IntType
    ensures r.Ok? && (e.Equal? || e.NotEqual? || e.LessThan?) ==> r.value == BoolType
  {
    match e
    case Column(c) =>
      if c.name in s.mapping then Ok(s.mapping[c.name]) else Err(UnknownColumn(c.name))
    case Length(b) =>
      var t :- Check(b, s);
      LengthRule(t)
    case Equal(l, r) =>
      var tl :- Check(l, s);
      var tr :- Check(r, s);
      EqualRule(tl, tr)
    case NotEqual(l, r) =>
      var tl :- Check(l, s);
      var tr :- Check(r, s);
      NotEqualRule(tl, tr)
    case LessThan(l, r) =>
      var tl :- Check(l, s);
      var tr :- Check(r, s);
      LessThanRule(tl, tr)
  }

  /**
   * The typing judgement node by node: when each kind of node typechecks,
   * and which error a failing node raises.
   */
  lemma TypingRules(e: Expr, s: Schema)
    ensures e.Column? ==> (Check(e, s).Ok? <==> e.node.name in s.mapping)
    ensures e.Column? && Check(e, s).Ok? ==> Check(e, s).value == s.mapping[e.node.name]
    ensures e.Column? && Check(e, s).Err? ==> Check(e, s).error == UnknownColumn(e.node.name)
    ensures e.Length? ==> (Check(e, s).Ok? <==> Check(e.base, s) == Ok(StringType))
    ensures (e.Equal? || e.NotEqual?) ==>
      (Check(e, s).Ok? <==> Check(e.left, s).Ok? && Check(e.right, s).Ok? &&
                            Check(e.left, s).value == Check(e.right, s).value)
    ensures e.LessThan? ==>
      (Check(e, s).Ok? <==> Check(e.left, s) == Ok(IntType) && Check(e.right, s) == Ok(IntType))
  {
    match e
    case Column(_) =>
    case Length(b) =>
    case Equal(l, r) =>
    case NotEqual(l, r) =>
    case LessThan(l, r) =>
  }

  /** A node whose children all typecheck fails only with its own rule's error. */
  lemma FirstFailure(e: Expr, s: Schema, k: nat)
    requires k < |Children(e)| && Check(Children(e)[k], s).Err?
    requires forall j :: 0 <= j < k ==> Check(Children(e)[j], s).Ok?
    ensures Check(e, s) == Check(Children(e)[k], s)
  {
    match e
    case Column(_) =>
    case Length(b) =>
    case Equal(l, r) =>
      assert Children(e)[0] == l;
    case NotEqual(l, r) =>
      assert Children(e)[0] == l;
    case LessThan(l, r) =>
      assert Children(e)[0] == l;
  }

  /** The `Column` objects of a tree already exist. */
  lemma NodesAllocated(e: Expr)
    ensures forall c :: c in Nodes(e) ==> allocated(c)
  {
    match e
    case Column(_) =>
    case Length(b) => NodesAllocated(b);
    case Equal(l, r) => NodesAllocated(l); NodesAllocated(r);
    case NotEqual(l, r) => NodesAllocated(l); NodesAllocated(r);
    case LessThan(l, r) => NodesAllocated(l); NodesAllocated(r);
  }

  // ----- the cached types and the imperative pass -----

  /** Every `Column` of the tree holds the type `s` gives its name. */
  predicate Cached(e: Expr, s: Schema)
    reads Nodes(e)
  {
    forall c :: c in Nodes(e) ==> c.name in s.mapping && c.cachedType == Some(s.mapping[c.name])
  }

  /** `type()` of a node: the cache for `Column`, a fixed type for the others. */
  function ResultType(e: Expr): Type
    reads if e.Column? then {e.node} else {}
    requires e.Column? ==> e.node.cachedType.Some?
  {
    match e
    case Column(c) => c.ResultType()
    case Length(_) => IntType
    case _ => BoolType
  }

  /** Once a tree's caches are filled, `type()` of its root reports the type `Check` gives it. */
  lemma ResultTypeAgrees(e: Expr, s: Schema)
    requires Check(e, s).Ok? && Cached(e, s)
    ensures e.Column? ==> e.node.cachedType.Some?
    ensures ResultType(e) == Check(e, s).value
  {
    if e.Column? {
      assert e.node in Nodes(e);
    }
  }

  /** One node's own `typecheck`, reading the cached types of its children. */
  method TypecheckNode(e: Expr, s: Schema) returns (r: Outcome<Error>)
    requires forall k :: 0 <= k < |Children(e)| ==>
      Check(Children(e)[k], s).Ok? && Cached(Children(e)[k], s)
    modifies if e.Column? then {e.node} else {}
    ensures r.Pass? <==> Check(e, s).Ok?
    ensures r.Fail? ==> r.error == Check(e, s).error
    ensures r.Pass? ==> Cached(e, s)
  {
    match e
    case Column(c) =>
      r := c.Typecheck(s);
    case Length(b) =>
      assert Children(e)[0] == b;
      r := if LengthRule(ResultType(b)).Ok? then Pass else Fail(LengthRule(ResultType(b)).error);
    case Equal(lhs, rhs) =>
      assert Children(e)[0] == lhs && Children(e)[1] == rhs;
      var rule := EqualRule(ResultType(lhs), ResultType(rhs));
      r := if rule.Ok? then Pass else Fail(rule.error);
    case NotEqual(lhs, rhs) =>
      assert Children(e)[0] == lhs && Children(e)[1] == rhs;
      var rule := NotEqualRule(ResultType(lhs), ResultType(rhs));
      r := if rule.Ok? then Pass else Fail(rule.error);
    case LessThan(lhs, rhs) =>
      assert Children(e)[0] == lhs && Children(e)[1] == rhs;
      var rule := LessThanRule(ResultType(lhs), ResultType(rhs));
      r := if rule.Ok? then Pass else Fail(rule.error);
  }

  /**
   * `typecheck_all`: for each child, typecheck its whole subtree and then the
   * child itself again, and finally the node. The outcome depends only on the
   * tree and the schema; when the pass passes, every cache holds the type the
   * schema gives, so running it again changes nothing.
   */
  method TypecheckAll(e: Expr, s: Schema) returns (r: Outcome<Error>)
    modifies Nodes(e)
    ensures r.Pass? <==> Check(e, s).Ok?
    ensures r.Fail? ==> r.error == Check(e, s).error
    ensures r.Pass? ==> Cached(e, s) && ResultType(e) == Check(e, s).value
    decreases e
  {
    NodesAllocated(e);
    var kids := Children(e);
    var i := 0;
    while i < |kids|
      invariant 0 <= i <= |kids|
      invariant forall j :: 0 <= j < i ==> Check(kids[j], s).Ok?
      invariant forall c :: c in Nodes(e) ==> allocated(c)
      invariant forall j, c :: 0 <= j < i && c in Nodes(kids[j]) ==>
        c.name in s.mapping && c.cachedType == Some(s.mapping[c.name])
    {
      label before:
      r := TypecheckAll(kids[i], s);
      if r.Fail? {
        FirstFailure(e, s, i);
        return;
      }
      r := TypecheckNode(kids[i], s);
      assert r.Pass?;
      forall j, c | 0 <= j <= i && c in Nodes(kids[j])
        ensures c.name in s.mapping && c.cachedType == Some(s.mapping[c.name])
      {
        if c !in Nodes(kids[i]) {
          assert old@before(allocated(c));
          assert c.cachedType == old@before(c.cachedType);
        }
      }
      i := i + 1;
    }
    r := TypecheckNode(e, s);
  }

  // ----- evaluation -----

  /**
   * `execute(row)`, on a tree that typechecks against `s` and a row of `s`.
   * The result is null or a value of the tree's type: a typechecked tree
   * never meets an operand of the wrong kind at run time.
   */
  function Eval(e: Expr, row: Row, ghost s: Schema): (v: Value)
    requires Check(e, s).Ok? && Conforms(row, s)
    ensures Fits(v, Check(e, s).value)
    decreases e
  {
    match e
    case Column(c) => row[c.name]
    case Length(b) =>
      var x := Eval(b, row, s);
      if x.Null? then Null else Int(|x.s|)
    case Equal(l, r) =>
      var x, y := Eval(l, row, s), Eval(r, row, s);
      if x.Null? || y.Null? then Null else Bool(x == y)
    case NotEqual(l, r) =>
      var x, y := Eval(l, row, s), Eval(r, row, s);
      if x.Null? || y.Null? then Null else Bool(x != y)
    case LessThan(l, r) =>
      var x, y := Eval(l, row, s), Eval(r, row, s);
      if x.Null? || y.Null? then Null else Bool(x.i < y.i)
  }

  /**
   * Three-valued logic: an operator node is null exactly when one of its
   * operands is; otherwise it is the length, `==`, `!=` or `<` of the operands.
   */
  lemma NullPropagation(e: Expr, row: Row, s: Schema)
    requires Check(e, s).Ok? && Conforms(row, s)
    ensures e.Column? ==> Eval(e, row, s) == row[e.node.name]
    ensures e.Length? ==>
      var x := Eval(e.base, row, s);
      (Eval(e, row, s).Null? <==> x.Null?) && (x.Str? ==> Eval(e, row, s) == Int(|x.s|))
    ensures (e.Equal? || e.NotEqual? || e.LessThan?) ==>
      var x, y := Eval(e.left, row, s), Eval(e.right, row, s);
      (Eval(e, row, s).Null? <==> x.Null? || y.Null?) &&
      (!x.Null? && !y.Null? ==>
        Eval(e, row, s) == Bool(if e.Equal? then x == y else if e.NotEqual? then x != y else x.i < y.i))
  {
  }
}

=== FILE: schema.dfy ===
/**
 * Schema: an ordered list of distinct column names bound to their types.
 */
module Schemas {
  import opened Wrappers
  import opened Values

  /** The set of names in a list. */
  function Elems(s: seq<string>): set<string> {
    set x | x in s
  }

  /** No name occurs twice. */
  predicate Distinct(s: seq<string>) {
    forall i, j :: 0 <= i < j < |s| ==> s[i] != s[j]
  }

  /**
   * `fields` is the column order, `mapping` the types by name and `types`
   * the types in column order (the `types` list the constructor derives).
   */
  datatype Schema = Schema(fields: seq<string>, mapping: map<string, Type>, types: seq<Type>)

  /** The invariant every constructed schema satisfies. */
  predicate Valid(s: Schema) {
    && Distinct(s.fields)
    && s.mapping.Keys == Elems(s.fields)
    && |s.types| == |s.fields|
    && forall i :: 0 <= i < |s.fields| ==> s.types[i] == s.mapping[s.fields[i]]
  }

  /** The index of the first field that the mapping leaves untyped, if any. */
  function FirstUntyped(fields: seq<string>, mapping: map<string, Type>): (r: Option<nat>)
    ensures r.None? ==> forall i :: 0 <= i < |fields| ==> fields[i] in mapping
    ensures r.Some? ==> r.value < |fields| && fields[r.value] !in mapping
    ensures r.Some? ==> forall i :: 0 <= i < r.value ==> fields[i] in mapping
  {
    if |fields| == 0 then None
    else if fields[0] !in mapping then Some(0)
    else match FirstUntyped(fields[1..], mapping)
      case None => None
      case Some(k) => Some(k + 1)
  }

  /** A list is duplicate-free exactly when it has as many distinct names as entries. */
  lemma {:induction false} DistinctCardinality(s: seq<string>)
    ensures |Elems(s)| <= |s|
    ensures Distinct(s) <==> |Elems(s)| == |s|
    decreases |s|
  {
    if |s| > 0 {
      var t := s[1..];
      DistinctCardinality(t);
      assert Elems(s) == {s[0]} + Elems(t) by {
        forall x ensures x in Elems(s) <==> x in {s[0]} + Elems(t) {
          if x in Elems(s) && x != s[0] {
            var i :| 0 <= i < |s| && s[i] == x;
            assert t[i - 1] == x;
          }
        }
      }
      if s[0] in Elems(t) {
        var k :| 0 <= k < |t| && t[k] == s[0];
        assert s[k + 1] == s[0];
        assert !Distinct(s);
      } else {
        assert Distinct(s) <==> Distinct(t) by {
          if Distinct(t) {
            forall i, j | 0 <= i < j < |s| ensures s[i] != s[j] {
              if i == 0 {
                assert s[j] == t[j - 1];
                assert s[j] in Elems(t);
              } else {
                assert s[i] == t[i - 1] && s[j] == t[j - 1];
              }
            }
          }
          if Distinct(s) {
            forall i, j | 0 <= i < j < |t| ensures t[i] != t[j] {
              assert t[i] == s[i + 1] && t[j] == s[j + 1];
            }
          }
        }
      }
    }
  }

  /**
   * `Schema(fields, mapping)`: every mapping key must be a field, every field
   * must be typed, and the two must have the same size (so a repeated field
   * name fails). The checks run in that order and the first failure is raised.
   */
  function NewSchema(fields: seq<string>, mapping: map<string, Type>): (r: Result<Schema, Error>)
    ensures r.Ok? <==> mapping.Keys == Elems(fields) && |fields| == |mapping|
    ensures r.Ok? ==> r.value.fields == fields && r.value.mapping == mapping && Valid(r.value)
    ensures !(mapping.Keys <= Elems(fields)) ==> r == Err(UnmatchedColumn)
    ensures mapping.Keys <= Elems(fields) ==>
      forall i :: 0 <= i < |fields| && fields[i] !in mapping &&
                  (forall j :: 0 <= j < i ==> fields[j] in mapping) ==>
        r == Err(UntypedColumn(fields[i]))
    ensures mapping.Keys == Elems(fields) && |fields| != |mapping| ==> r == Err(DuplicateColumn)
  {
    if !(mapping.Keys <= Elems(fields)) then Err(UnmatchedColumn)
    else match FirstUntyped(fields, mapping)
      case Some(k) => Err(UntypedColumn(fields[k]))
      case None =>
        assert mapping.Keys == Elems(fields);
        if |fields| != |mapping| then Err(DuplicateColumn)
        else
          DistinctCardinality(fields);
          assert |mapping.Keys| == |mapping|;
          Ok(Schema(fields, mapping, seq(|fields|, i requires 0 <= i < |fields| => mapping[fields[i]])))
  }

  /** A valid schema is rebuilt unchanged from its own fields and mapping. */
  lemma RebuildSchema(s: Schema)
    requires Valid(s)
    ensures NewSchema(s.fields, s.mapping) == Ok(s)
  {
    DistinctCardinality(s.fields);
    assert |s.mapping.Keys| == |s.mapping|;
    var r := NewSchema(s.fields, s.mapping);
    assert r.value.types == s.types;
  }

  /** A row built for schema `s`: exactly its columns, each holding a value its type admits. */
  predicate Conforms(row: Row, s: Schema) {
    && row.Keys == s.mapping.Keys
    && forall f :: f in row ==> Fits(row[f], s.mapping[f])
  }

  /** Every row of a stream belongs to schema `s`. */
  predicate AllConform(rows: seq<Row>, s: Schema) {
    forall k :: 0 <= k < |rows| ==> Conforms(rows[k], s)
  }
}

=== FILE: text.dfy ===
/**
 * The textual layer of the table format: whitespace tokenisation of a line
 * (Python's `str.split()` with no argument), tab-joining of output cells,
 * and the decimal form of integers (`str(int)` and `int(str)`).
 */
module Text {
  import opened Wrappers

  /** The ASCII whitespace characters `str.split()` breaks on. */
  predicate IsSpace(c: char) {
    c == ' ' || c == '\t' || c == '\n' || c == '\r' || c == '\U{B}' || c == '\U{C}'
  }

  /** No character of `s` is whitespace. */
  predicate NoSpace(s: string) {
    forall i :: 0 <= i < |s| ==> !IsSpace(s[i])
  }

  /** A non-empty run of non-whitespace characters: what `split()` yields. */
  predicate IsToken(s: string) {
    |s| > 0 && NoSpace(s)
  }

  /** Splits `s` on runs of whitespace; `cur` is the token read so far. */
  function SplitFrom(s: string, cur: string): (r: seq<string>)
    requires NoSpace(cur)
    ensures forall k :: 0 <= k < |r| ==> IsToken(r[k])
    decreases |s|
  {
    if |s| == 0 then
      (if cur == "" then [] else [cur])
    else if IsSpace(s[0]) then
      (if cur == "" then [] else [cur]) + SplitFrom(s[1..], "")
    else
      SplitFrom(s[1..], cur + [s[0]])
  }

  /** `line.split()`: the whitespace-separated tokens of a line, in order. */
  function Split(line: string): (r: seq<string>)
    ensures forall k :: 0 <= k < |r| ==> IsToken(r[k])
  {
    SplitFrom(line, "")
  }

  /** `'\t'.join(cells)`. */
  function JoinTab(cells: seq<string>): string
  {
    if |cells| == 0 then ""
    else if |cells| == 1 then cells[0]
    else cells[0] + "\t" + JoinTab(cells[1..])
  }

  /** Reading a run of non-whitespace characters only extends the current token. */
  lemma {:induction false} SplitFromWord(w: string, rest: string, cur: string)
    requires NoSpace(w) && NoSpace(cur)
    ensures NoSpace(cur + w)
    ensures SplitFrom(w + rest, cur) == SplitFrom(rest, cur + w)
    decreases |w|
  {
    if |w| == 0 {
      assert w + rest == rest;
      assert cur + w == cur;
    } else {
      assert (w + rest)[0] == w[0];
      assert (w + rest)[1..] == w[1..] + rest;
      assert cur + w == (cur + [w[0]]) + w[1..];
      SplitFromWord(w[1..], rest, cur + [w[0]]);
    }
  }

  /** Tab-joined tokens split back into the same tokens. */
  lemma {:induction false} SplitJoinTab(cells: seq<string>)
    requires forall k :: 0 <= k < |cells| ==> IsToken(cells[k])
    ensures Split(JoinTab(cells)) == cells
    decreases |cells|
  {
    if |cells| == 0 {
    } else if |cells| == 1 {
      SplitFromWord(cells[0], "", "");
      assert cells[0] + "" == cells[0];
      assert "" + cells[0] == cells[0];
    } else {
      var t := cells[0];
      var rest := JoinTab(cells[1..]);
      assert JoinTab(cells) == t + ("\t" + rest);
      SplitFromWord(t, "\t" + rest, "");
      assert "" + t == t;
      assert ("\t" + rest)[0] == '\t';
      assert ("\t" + rest)[1..] == rest;
      SplitJoinTab(cells[1..]);
    }
  }

  // ----- decimal integers -----

  predicate IsDigit(c: char) { '0' <= c <= '9' }

  predicate AllDigits(s: string) {
    forall i :: 0 <= i < |s| ==> IsDigit(s[i])
  }

  function DigitChar(d: nat): (c: char)
    requires d < 10
    ensures IsDigit(c) && (c as int) - ('0' as int) == d
  {
    ('0' as int + d) as char
  }

  /** The decimal digits of a natural number, most significant first. */
  function RenderNat(n: nat): (s: string)
    decreases n
  {
    if n < 10 then [DigitChar(n)] else RenderNat(n / 10) + [DigitChar(n % 10)]
  }

  /** `str(i)` for an integer: an optional minus sign, then the digits. */
  function RenderInt(i: int): (r: string)
    ensures |r| > 0 && (r[0] == '-' <==> i < 0)
  {
    RenderNatDigits(if i < 0 then -i else i);
    if i < 0 then "-" + RenderNat(-i) else RenderNat(i)
  }

  /** The value of a string of decimal digits. */
  function DigitsValue(s: string): nat
    requires AllDigits(s)
    decreases |s|
  {
    if |s| == 0 then 0
    else DigitsValue(s[..|s| - 1]) * 10 + ((s[|s| - 1] as int) - ('0' as int))
  }

  /**
   * `int(token)` on a whitespace-free token: an optional sign followed by at
   * least one decimal digit; anything else is not an integer.
   */
  function ParseInt(s: string): (r: Option<int>)
    ensures r.Some? ==> |s| > 0
  {
    if |s| > 0 && (s[0] == '-' || s[0] == '+') then
      if |s| > 1 && AllDigits(s[1..]) then
        Some(if s[0] == '-' then 0 - DigitsValue(s[1..]) as int else DigitsValue(s[1..]))
      else None
    else if |s| > 0 && AllDigits(s) then Some(DigitsValue(s))
    else None
  }

  lemma {:induction false} RenderNatDigits(n: nat)
    ensures |RenderNat(n)| > 0 && AllDigits(RenderNat(n))
    ensures DigitsValue(RenderNat(n)) == n
    decreases n
  {
    if n >= 10 {
      RenderNatDigits(n / 10);
      var s := RenderNat(n);
      assert s[..|s| - 1] == RenderNat(n / 10);
    }
  }

  /** Rendering an integer and parsing it back gives the same integer. */
  lemma ParseRenderInt(i: int)
    ensures ParseInt(RenderInt(i)) == Some(i)
  {
    var digits := if i < 0 then -i else i;
    RenderNatDigits(digits);
    if i < 0 {
      assert RenderInt(i)[1..] == RenderNat(-i);
    }
  }

  /** A rendered integer is a single token that is not the null marker `NA`. */
  lemma RenderIntToken(i: int)
    ensures IsToken(RenderInt(i)) && RenderInt(i) != "NA"
  {
    var digits := if i < 0 then -i else i;
    RenderNatDigits(digits);
    var s := RenderInt(i);
    forall k | 0 <= k < |s| ensures !IsSpace(s[k]) {
      if i < 0 && k == 0 {
      } else if i < 0 {
        assert s[k] == RenderNat(-i)[k - 1];
      }
    }
    assert s[|s| - 1] != 'A';
  }
}

=== FILE: transformations.dfy ===
/**
 * The lazy transformation pipeline: `Load` turns stored text lines into typed
 * rows, `Filter` keeps the rows whose predicate is truthy, `Select` projects
 * each row through named expressions. A stream is modelled by what a full
 * pull of the generator observes: the rows produced, then the error (if
 * any) raised where the next row would have been produced.
 */
module Transformations {
  import opened Wrappers
  import opened Text
  import opened Values
  import opened Schemas
  import opened Expressions

  /** One `(name, expression)` pair of a `Select`. */
  datatype Selection = Selection(name: string, expr: Expr)

  datatype Transformation =
    | Load(lines: seq<string>, schema: Schema)
    | Filter(base: Transformation, comparison: Expr)
    | Select(base: Transformation, selections: seq<Selection>, schema: Schema)

  /** The rows a full pull yields, and the error that ended it early, if any. */
  datatype Stream = Stream(rows: seq<Row>, failure: Option<Error>)

  /** The last stage of a pipeline that is not a `Filter`. */
  function Unfiltered(t: Transformation): (u: Transformation)
    ensures !u.Filter?
  {
    if t.Filter? then Unfiltered(t.base) else t
  }

  /**
   * `schema()`: known from construction alone. It is the schema the last
   * `Load` or `Select` stage set up: `Filter` passes its base's through.
   */
  function SchemaOf(t: Transformation): Schema
  {
    match t
    case Load(_, s) => s
    case Filter(base, _) => SchemaOf(base)
    case Select(_, _, s) => s
  }

  /** A pipeline's schema is the one its last `Load` or `Select` stage set up. */
  lemma {:induction false} SchemaOfUnfiltered(t: Transformation)
    ensures SchemaOf(t) == Unfiltered(t).schema
  {
    if t.Filter? {
      SchemaOfUnfiltered(t.base);
    }
  }

  // ----- Load -----

  /**
   * Cell parsing as the source writes it: `NA` is handled by the caller,
   * Int cells go through `int`, String cells stay raw, and Bool cells go
   * through `bool(token)`, which is true for every non-empty token.
   */
  function ParseCellAsWritten(t: Type, token: string): (r: Result<Value, Error>)
    ensures t == BoolType ==> r == Ok(Bool(token != ""))
  {
    match t
    case IntType => (match ParseInt(token)
      case Some(i) => Ok(Int(i))
      case None => Err(NotAnInteger(token)))
    case StringType => Ok(Str(token))
    case BoolType => Ok(Bool(token != ""))
  }

  /**
   * Cell parsing with an explicit Boolean grammar: exactly the two forms
   * `str` gives a Boolean, `True` and `False`; any other token is refused.
   */
  function ParseCell(t: Type, token: string): (r: Result<Value, Error>)
    ensures r.Ok? ==> HasType(r.value, t)
    ensures t == StringType ==> r == Ok(Str(token))
    ensures t == BoolType ==> (r.Ok? <==> token == "True" || token == "False")
    ensures t == IntType ==> (r.Ok? <==> ParseInt(token).Some?)
  {
    match t
    case IntType => (match ParseInt(token)
      case Some(i) => Ok(Int(i))
      case None => Err(NotAnInteger(token)))
    case StringType => Ok(Str(token))
    case BoolType =>
      if token == "True" then Ok(Bool(true))
      else if token == "False" then Ok(Bool(false))
      else Err(NotABoolean(token))
  }

  /** `bool(token)` reads the rendered `False` back as true; the explicit grammar does not. */
  lemma BoolParseAsWrittenInverts()
    ensures Render(Bool(false)) == "False"
    ensures ParseCellAsWritten(BoolType, Render(Bool(false))) == Ok(Bool(true))
    ensures ParseCell(BoolType, Render(Bool(false))) == Ok(Bool(false))
  {
  }

  /** Every non-null value is read back from its rendering (strings: when they are plain tokens). */
  lemma ParseRenderCell(v: Value, t: Type)
    requires HasType(v, t)
    requires v.Str? ==> IsToken(v.s) && v.s != "NA"
    ensures IsToken(Render(v)) && Render(v) != "NA"
    ensures ParseCell(t, Render(v)) == Ok(v)
  {
    match v
    case Int(i) =>
      RenderIntToken(i);
      ParseRenderInt(i);
    case Str(_) =>
    case Bool(b) =>
      assert IsToken("True") && IsToken("False");
  }

  /** The value of column `j` of a data line: `NA` is null, other tokens parse by type. */
  function CellAt(tokens: seq<string>, s: Schema, j: nat): (r: Result<Value, Error>)
    requires j < |s.types|
    ensures r.Ok? ==> Fits(r.value, s.types[j])
    ensures j >= |tokens| <==> r == Err(MissingToken(j))
  {
    if j >= |tokens| then Err(MissingToken(j))
    else if tokens[j] == "NA" then Ok(Null)
    else ParseCell(s.types[j], tokens[j])
  }

  /** The row dictionary after the first `n` columns of the inner loop. */
  function ParseRow(tokens: seq<string>, s: Schema, n: nat): Result<Row, Error>
    requires n <= |s.fields| == |s.types|
  {
    if n == 0 then Ok(map[])
    else
      var row :- ParseRow(tokens, s, n - 1);
      var v :- CellAt(tokens, s, n - 1);
      Ok(row[s.fields[n - 1] := v])
  }

  /** A data line's first `n` cells parse exactly when each of them does. */
  lemma {:induction false} ParseRowOk(tokens: seq<string>, s: Schema, n: nat)
    requires n <= |s.fields| == |s.types|
    ensures ParseRow(tokens, s, n).Ok? <==> forall k :: 0 <= k < n ==> CellAt(tokens, s, k).Ok?
    decreases n
  {
    if n > 0 {
      ParseRowOk(tokens, s, n - 1);
    }
  }

  /** A parsed row has exactly the first `n` column names as keys. */
  lemma {:induction false} ParseRowKeys(tokens: seq<string>, s: Schema, n: nat)
    requires n <= |s.fields| == |s.types|
    requires ParseRow(tokens, s, n).Ok?
    ensures ParseRow(tokens, s, n).value.Keys == Elems(s.fields[..n])
    decreases n
  {
    if n > 0 {
      assert ParseRow(tokens, s, n - 1).Ok?;
      ParseRowKeys(tokens, s, n - 1);
      assert s.fields[..n] == s.fields[..n - 1] + [s.fields[n - 1]];
      assert Elems(s.fields[..n]) == Elems(s.fields[..n - 1]) + {s.fields[n - 1]};
    }
  }

  /** In a parsed row, column `k` (of distinct names) is bound to the value of cell `k`. */
  lemma {:induction false} ParseRowAt(tokens: seq<string>, s: Schema, n: nat, k: nat)
    requires Distinct(s.fields) && k < n <= |s.fields| == |s.types|
    requires ParseRow(tokens, s, n).Ok?
    ensures CellAt(tokens, s, k).Ok? && s.fields[k] in ParseRow(tokens, s, n).value
    ensures ParseRow(tokens, s, n).value[s.fields[k]] == CellAt(tokens, s, k).value
    decreases n
  {
    var prev := ParseRow(tokens, s, n - 1);
    assert prev.Ok? && CellAt(tokens, s, n - 1).Ok?;
    if k < n - 1 {
      ParseRowAt(tokens, s, n - 1, k);
      assert s.fields[k] != s.fields[n - 1];
    }
  }

  /** The first cell that fails to parse is the error of the whole row. */
  lemma {:induction false} ParseRowFails(tokens: seq<string>, s: Schema, j: nat, n: nat)
    requires j < n <= |s.fields| == |s.types|
    requires ParseRow(tokens, s, j).Ok? && CellAt(tokens, s, j).Err?
    ensures ParseRow(tokens, s, n) == Err(CellAt(tokens, s, j).error)
    decreases n
  {
    if n > j + 1 {
      ParseRowFails(tokens, s, j, n - 1);
    }
  }

  /** A parsed row belongs to the schema it was parsed against. */
  lemma ParsedRowConforms(tokens: seq<string>, s: Schema)
    requires Valid(s) && ParseRow(tokens, s, |s.fields|).Ok?
    ensures Conforms(ParseRow(tokens, s, |s.fields|).value, s)
  {
    var n := |s.fields|;
    ParseRowKeys(tokens, s, n);
    assert s.fields[..n] == s.fields;
    var row := ParseRow(tokens, s, n).value;
    forall f | f in row ensures Fits(row[f], s.mapping[f]) {
      var k :| 0 <= k < n && s.fields[k] == f;
      ParseRowAt(tokens, s, n, k);
    }
  }

  /** The stream of `Load` from line `i` on: each line read in turn until one fails. */
  function LoadFrom(lines: seq<string>, s: Schema, i: nat): (st: Stream)
    requires Valid(s)
    ensures |st.rows| <= if i <= |lines| then |lines| - i else 0
    decreases |lines| - i
  {
    if i >= |lines| then Stream([], None)
    else match ParseRow(Split(lines[i]), s, |s.fields|)
      case Err(e) => Stream([], Some(e))
      case Ok(row) =>
        var rest := LoadFrom(lines, s, i + 1);
        Stream([row] + rest.rows, rest.failure)
  }

  /** One row per line, in line order: row `k` is what line `i + k` reads as. */
  lemma {:induction false} LoadFromRow(lines: seq<string>, s: Schema, i: nat, k: nat)
    requires Valid(s) && k < |LoadFrom(lines, s, i).rows|
    ensures i + k < |lines|
    ensures ParseRow(Split(lines[i + k]), s, |s.fields|) == Ok(LoadFrom(lines, s, i).rows[k])
    decreases k
  {
    var row := ParseRow(Split(lines[i]), s, |s.fields|);
    assert i < |lines| && row.Ok?;
    var rest := LoadFrom(lines, s, i + 1);
    assert LoadFrom(lines, s, i).rows == [row.value] + rest.rows;
    if k > 0 {
      LoadFromRow(lines, s, i + 1, k - 1);
      assert (i + 1) + (k - 1) == i + k;
    }
  }

  /**
   * The stream stops only at a line that fails to be read, and that line's
   * error ends it; without a failure every line gives a row.
   */
  lemma {:induction false} LoadFromEnd(lines: seq<string>, s: Schema, i: nat)
    requires Valid(s)
    ensures var st := LoadFrom(lines, s, i);
      st.failure.None? ==> |st.rows| == if i <= |lines| then |lines| - i else 0
    ensures var st := LoadFrom(lines, s, i);
      st.failure.Some? ==>
        i + |st.rows| < |lines| &&
        ParseRow(Split(lines[i + |st.rows|]), s, |s.fields|) == Err(st.failure.value)
    decreases |lines| - i
  {
    if i < |lines| && ParseRow(Split(lines[i]), s, |s.fields|).Ok? {
      LoadFromEnd(lines, s, i + 1);
      var rest := LoadFrom(lines, s, i + 1);
      assert i + (1 + |rest.rows|) == (i + 1) + |rest.rows|;
    }
  }

  /**
   * `Load(path, mapping)` on the already-read lines: the first line is the
   * header whose tokens name the columns; an empty source has no header.
   */
  function NewLoad(lines: seq<string>, mapping: map<string, Type>): (r: Result<Transformation, Error>)
    ensures |lines| == 0 ==> r == Err(NoHeader)
    ensures |lines| > 0 ==>
      (r.Ok? <==> mapping.Keys == Elems(Split(lines[0])) && |Split(lines[0])| == |mapping|)
    ensures r.Ok? ==> r.value.Load? && r.value.lines == lines && WellFormed(r.value)
    ensures r.Ok? ==> SchemaOf(r.value).fields == Split(lines[0]) && SchemaOf(r.value).mapping == mapping
    ensures |lines| > 0 && r.Err? ==>
      NewSchema(Split(lines[0]), mapping).Err? && r.error == NewSchema(Split(lines[0]), mapping).error
  {
    if |lines| == 0 then Err(NoHeader)
    else
      var s :- NewSchema(Split(lines[0]), mapping);
      Ok(Load(lines, s))
  }

  /**
   * The inner loop of `Load.stream`: fill a row column by column from the
   * split tokens of one line; the first cell that cannot be read is the error.
   */
  method ReadRow(values: seq<string>, s: Schema) returns (r: Result<Row, Error>)
    requires |s.fields| == |s.types|
    ensures r == ParseRow(values, s, |s.fields|)
  {
    var row: Row := map[];
    var j := 0;
    while j < |s.fields|
      invariant 0 <= j <= |s.fields|
      invariant ParseRow(values, s, j) == Ok(row)
    {
      var cell := CellAt(values, s, j);
      if cell.Err? {
        ParseRowFails(values, s, j, |s.fields|);
        return Err(cell.error);
      }
      row := row[s.fields[j] := cell.value];
      j := j + 1;
    }
    r := Ok(row);
  }

  /**
   * `Load.stream`: for each data line, split it and read a row; the first
   * line that cannot be read ends the stream with its error.
   */
  method StreamLoad(lines: seq<string>, s: Schema) returns (st: Stream)
    requires |lines| > 0 && Valid(s)
    ensures st == LoadFrom(lines, s, 1)
  {
    var rows: seq<Row> := [];
    var i := 1;
    while i < |lines|
      invariant 1 <= i <= |lines|
      invariant rows + LoadFrom(lines, s, i).rows == LoadFrom(lines, s, 1).rows
      invariant LoadFrom(lines, s, i).failure == LoadFrom(lines, s, 1).failure
    {
      var parsed := ReadRow(Split(lines[i]), s);
      if parsed.Err? {
        assert LoadFrom(lines, s, i) == Stream([], Some(parsed.error));
        return Stream(rows, Some(parsed.error));
      }
      ghost var rest := LoadFrom(lines, s, i + 1);
      assert LoadFrom(lines, s, i) == Stream([parsed.value] + rest.rows, rest.failure);
      rows := rows + [parsed.value];
      i := i + 1;
    }
    st := Stream(rows, None);
  }

  // ----- Filter -----

  /**
   * The rows whose predicate is truthy, in their original order: a null
   * (missing) predicate, `False`, `0` and `""` all drop the row.
   */
  function FilterRows(rows: seq<Row>, pred: Expr, ghost s: Schema): (out: seq<Row>)
    requires Check(pred, s).Ok?
    requires AllConform(rows, s)
    ensures |out| <= |rows|
    ensures forall r :: r in out ==> r in rows
    ensures AllConform(out, s)
  {
    if |rows| == 0 then []
    else
      var rest := FilterRows(rows[1..], pred, s);
      if Truthy(Eval(pred, rows[0], s)) then [rows[0]] + rest else rest
  }

  /** For a Boolean predicate, truthy means `True`: null and `False` both drop the row. */
  lemma BoolPredicateTruthy(pred: Expr, row: Row, s: Schema)
    requires Check(pred, s) == Ok(BoolType) && Conforms(row, s)
    ensures Truthy(Eval(pred, row, s)) <==> Eval(pred, row, s) == Bool(true)
  {
  }

  /** A row is kept exactly when it is a base row whose predicate is truthy. */
  lemma {:induction false} FilterRowsMembers(rows: seq<Row>, pred: Expr, s: Schema, r: Row)
    requires Check(pred, s).Ok?
    requires AllConform(rows, s)
    requires r in rows
    ensures Conforms(r, s)
    ensures r in FilterRows(rows, pred, s) <==> Truthy(Eval(pred, r, s))
    decreases |rows|
  {
    if r in rows[1..] {
      FilterRowsMembers(rows[1..], pred, s, r);
    }
  }

  /** Two runs of conforming rows make one. */
  lemma ConformAppend(a: seq<Row>, b: seq<Row>, s: Schema)
    requires AllConform(a, s) && AllConform(b, s)
    ensures AllConform(a + b, s)
  {
    var ab := a + b;
    forall k | 0 <= k < |ab| ensures Conforms(ab[k], s) {
      if k >= |a| { assert ab[k] == b[k - |a|]; }
    }
  }

  /** Filtering distributes over concatenation, so the kept rows keep their order. */
  lemma {:induction false} FilterRowsAppend(a: seq<Row>, b: seq<Row>, pred: Expr, s: Schema)
    requires Check(pred, s).Ok?
    requires AllConform(a, s) && AllConform(b, s)
    ensures AllConform(a + b, s)
    ensures FilterRows(a + b, pred, s) == FilterRows(a, pred, s) + FilterRows(b, pred, s)
    decreases |a|
  {
    var ab := a + b;
    ConformAppend(a, b, s);
    if |a| == 0 {
      assert ab == b;
    } else {
      assert ab[0] == a[0];
      assert ab[1..] == a[1..] + b;
      FilterRowsAppend(a[1..], b, pred, s);
    }
  }

  /** `Filter(base, comparison)`: the predicate is typechecked against the base schema. */
  method NewFilter(base: Transformation, comparison: Expr) returns (r: Result<Transformation, Error>)
    requires WellFormed(base)
    modifies Nodes(comparison)
    ensures r.Ok? <==> Check(comparison, SchemaOf(base)).Ok?
    ensures r.Err? ==> r.error == Check(comparison, SchemaOf(base)).error
    ensures r.Ok? ==> r.value == Filter(base, comparison) && WellFormed(r.value)
    ensures r.Ok? ==> Cached(comparison, SchemaOf(base))
  {
    var outcome := TypecheckAll(comparison, SchemaOf(base));
    if outcome.Fail? {
      return Err(outcome.error);
    }
    r := Ok(Filter(base, comparison));
  }

  // ----- Select -----

  function Names(sels: seq<Selection>): (names: seq<string>)
    ensures |names| == |sels| && forall k :: 0 <= k < |sels| ==> names[k] == sels[k].name
  {
    if |sels| == 0 then [] else Names(sels[..|sels| - 1]) + [sels[|sels| - 1].name]
  }

  /**
   * The `new_mapping` the constructor's loop builds: each expression is
   * typechecked in turn (the first failure is raised) and its name bound to
   * its type, a later entry overwriting an earlier one of the same name.
   */
  function SelectTypes(sels: seq<Selection>, s: Schema): Result<map<string, Type>, Error>
    decreases |sels|
  {
    if |sels| == 0 then Ok(map[])
    else
      var m :- SelectTypes(sels[..|sels| - 1], s);
      var t :- Check(sels[|sels| - 1].expr, s);
      Ok(m[sels[|sels| - 1].name := t])
  }

  /** The schema `Select` derives from its base schema. */
  function DeriveSchema(base: Schema, sels: seq<Selection>): Result<Schema, Error>
  {
    var m :- SelectTypes(sels, base);
    NewSchema(Names(sels), m)
  }

  /** One more selection: its name is appended, and its type bound when it typechecks. */
  lemma SelectTypesStep(sels: seq<Selection>, s: Schema, i: nat)
    requires i < |sels|
    ensures Names(sels[..i + 1]) == Names(sels[..i]) + [sels[i].name]
    ensures SelectTypes(sels[..i], s).Ok? && Check(sels[i].expr, s).Ok? ==>
      SelectTypes(sels[..i + 1], s) ==
        Ok(SelectTypes(sels[..i], s).value[sels[i].name := Check(sels[i].expr, s).value])
  {
    assert sels[..i + 1][..i] == sels[..i];
  }

  /** The first selection that fails to typecheck is the error of the whole loop. */
  lemma {:induction false} SelectTypesFails(sels: seq<Selection>, s: Schema, j: nat, n: nat)
    requires j < n <= |sels|
    requires SelectTypes(sels[..j], s).Ok? && Check(sels[j].expr, s).Err?
    ensures SelectTypes(sels[..n], s) == Err(Check(sels[j].expr, s).error)
    decreases n
  {
    if n == j + 1 {
      assert sels[..n][..n - 1] == sels[..j];
    } else {
      SelectTypesFails(sels, s, j, n - 1);
      assert sels[..n][..n - 1] == sels[..n - 1];
    }
  }

  /** The loop gets through exactly when every selection typechecks. */
  lemma {:induction false} SelectTypesOk(sels: seq<Selection>, s: Schema)
    ensures SelectTypes(sels, s).Ok? <==> AllTypecheck(sels, s)
    decreases |sels|
  {
    if |sels| > 0 {
      var init := sels[..|sels| - 1];
      SelectTypesOk(init, s);
      assert forall k :: 0 <= k < |init| ==> init[k] == sels[k];
    }
  }

  /** Once it gets through, the bound names are exactly the selection names. */
  lemma {:induction false} SelectTypesKeys(sels: seq<Selection>, s: Schema)
    requires AllTypecheck(sels, s)
    ensures SelectTypes(sels, s).Ok? && SelectTypes(sels, s).value.Keys == Elems(Names(sels))
    decreases |sels|
  {
    if |sels| > 0 {
      var n := |sels| - 1;
      var init := sels[..n];
      assert forall k :: 0 <= k < |init| ==> init[k] == sels[k];
      SelectTypesKeys(init, s);
      assert Names(sels) == Names(init) + [sels[n].name];
      assert Elems(Names(sels)) == Elems(Names(init)) + {sels[n].name};
    }
  }

  /** A name that no later selection reuses is bound to the type of its own expression. */
  lemma {:induction false} SelectTypesAt(sels: seq<Selection>, s: Schema, k: nat)
    requires AllTypecheck(sels, s) && k < |sels|
    requires forall j :: k < j < |sels| ==> sels[j].name != sels[k].name
    ensures SelectTypes(sels, s).Ok? && sels[k].name in SelectTypes(sels, s).value
    ensures SelectTypes(sels, s).value[sels[k].name] == Check(sels[k].expr, s).value
    decreases |sels|
  {
    var n := |sels| - 1;
    var init := sels[..n];
    assert forall i :: 0 <= i < |init| ==> init[i] == sels[i];
    SelectTypesOk(init, s);
    if k < n {
      SelectTypesAt(init, s, k);
    }
    assert SelectTypes(sels, s) ==
      Ok(SelectTypes(init, s).value[sels[n].name := Check(sels[n].expr, s).value]);
  }

  /**
   * The derived schema exists exactly when every expression typechecks and
   * no name repeats; its fields are the names in order, each typed by its
   * expression.
   */
  lemma DeriveSchemaShape(base: Schema, sels: seq<Selection>)
    ensures DeriveSchema(base, sels).Ok? <==>
      AllTypecheck(sels, base) && Distinct(Names(sels))
    ensures DeriveSchema(base, sels).Ok? ==>
      && Valid(DeriveSchema(base, sels).value)
      && DeriveSchema(base, sels).value.fields == Names(sels)
      && forall k :: 0 <= k < |sels| ==>
           DeriveSchema(base, sels).value.types[k] == Check(sels[k].expr, base).value
  {
    SelectTypesOk(sels, base);
    DistinctCardinality(Names(sels));
    if SelectTypes(sels, base).Ok? {
      SelectTypesKeys(sels, base);
      var m := SelectTypes(sels, base).value;
      assert |m.Keys| == |m|;
      if Distinct(Names(sels)) {
        var d := DeriveSchema(base, sels).value;
        forall k | 0 <= k < |sels| ensures d.types[k] == Check(sels[k].expr, base).value {
          assert Names(sels)[k] == sels[k].name;
          forall j | k < j < |sels| ensures sels[j].name != sels[k].name {
            assert Names(sels)[j] == sels[j].name;
          }
          SelectTypesAt(sels, base, k);
        }
      }
    }
  }

  /** Every selection typechecks against `s`. */
  predicate AllTypecheck(sels: seq<Selection>, s: Schema) {
    forall k :: 0 <= k < |sels| ==> Check(sels[k].expr, s).Ok?
  }

  /** The dictionary filled by assigning `names[k] := values[k]` for each `k` in turn. */
  function Assign(names: seq<string>, values: seq<Value>): (row: Row)
    requires |names| == |values|
    ensures row.Keys == Elems(names)
    decreases |names|
  {
    if |names| == 0 then map[]
    else
      var last := |names| - 1;
      assert names == names[..last] + [names[last]];
      assert Elems(names) == Elems(names[..last]) + {names[last]};
      Assign(names[..last], values[..last])[names[last] := values[last]]
  }

  /** A name holds the value of its last assignment. */
  lemma {:induction false} AssignAt(names: seq<string>, values: seq<Value>, k: nat)
    requires |names| == |values| && k < |names|
    requires forall j :: k < j < |names| ==> names[j] != names[k]
    ensures Assign(names, values)[names[k]] == values[k]
    decreases |names|
  {
    var last := |names| - 1;
    if k < last {
      AssignAt(names[..last], values[..last], k);
    }
  }

  /** The value of each selection's expression on `row`, in selection order. */
  function Evaluate(sels: seq<Selection>, row: Row, ghost s: Schema): (values: seq<Value>)
    requires AllTypecheck(sels, s) && Conforms(row, s)
    ensures |values| == |sels|
    ensures forall k :: 0 <= k < |sels| ==> values[k] == Eval(sels[k].expr, row, s)
  {
    if |sels| == 0 then [] else [Eval(sels[0].expr, row, s)] + Evaluate(sels[1..], row, s)
  }

  /** `new_row` of `Select.stream`: each name bound to its expression's value on the base row. */
  function Project(sels: seq<Selection>, row: Row, ghost s: Schema): (r: Row)
    requires AllTypecheck(sels, s) && Conforms(row, s)
    ensures r.Keys == Elems(Names(sels))
  {
    Assign(Names(sels), Evaluate(sels, row, s))
  }

  /** `Select.stream`: exactly one projected row per base row, in order. */
  function SelectRows(rows: seq<Row>, sels: seq<Selection>, ghost s: Schema): (out: seq<Row>)
    requires AllTypecheck(sels, s) && AllConform(rows, s)
    ensures |out| == |rows|
    ensures forall k :: 0 <= k < |rows| ==> out[k] == Project(sels, rows[k], s)
  {
    if |rows| == 0 then [] else [Project(sels, rows[0], s)] + SelectRows(rows[1..], sels, s)
  }

  /** A projected row belongs to the derived schema. */
  lemma ProjectConforms(sels: seq<Selection>, row: Row, base: Schema)
    requires DeriveSchema(base, sels).Ok? && Conforms(row, base)
    ensures AllTypecheck(sels, base)
    ensures Conforms(Project(sels, row, base), DeriveSchema(base, sels).value)
  {
    DeriveSchemaShape(base, sels);
    var d := DeriveSchema(base, sels).value;
    var names, values := Names(sels), Evaluate(sels, row, base);
    var out := Project(sels, row, base);
    forall f | f in out ensures Fits(out[f], d.mapping[f]) {
      var k :| 0 <= k < |sels| && names[k] == f;
      assert d.fields[k] == f && d.types[k] == d.mapping[f];
      AssignAt(names, values, k);
    }
  }

  /**
   * One step of the `Select` loop: typecheck selection `i`. Its caches end up
   * holding the schema types, and so do those of the earlier selections: a
   * node shared with them gets the same type again, every other node is
   * untouched.
   */
  method TypecheckSelection(sels: seq<Selection>, i: nat, s: Schema) returns (outcome: Outcome<Error>)
    requires i < |sels|
    requires forall k :: 0 <= k < i ==> Cached(sels[k].expr, s)
    modifies Nodes(sels[i].expr)
    ensures outcome.Pass? <==> Check(sels[i].expr, s).Ok?
    ensures outcome.Fail? ==> outcome.error == Check(sels[i].expr, s).error
    ensures outcome.Pass? ==> forall k :: 0 <= k <= i ==> Cached(sels[k].expr, s)
    ensures outcome.Pass? ==> Cached(sels[i].expr, s) && ResultType(sels[i].expr) == Check(sels[i].expr, s).value
  {
    forall k | 0 <= k < i ensures forall c :: c in Nodes(sels[k].expr) ==> allocated(c) {
      NodesAllocated(sels[k].expr);
    }
    label before:
    outcome := TypecheckAll(sels[i].expr, s);
    if outcome.Pass? {
      forall k, c | 0 <= k < i && c in Nodes(sels[k].expr)
        ensures c.name in s.mapping && c.cachedType == Some(s.mapping[c.name])
      {
        if c !in Nodes(sels[i].expr) {
          assert old@before(allocated(c));
          assert c.cachedType == old@before(c.cachedType);
        }
      }
    }
  }

  /**
   * `Select(base, selections)`: the loop records each name and typechecks
   * each expression against the base schema, then builds the new schema,
   * which refuses a repeated name.
   */
  method NewSelect(base: Transformation, sels: seq<Selection>) returns (r: Result<Transformation, Error>)
    requires WellFormed(base)
    modifies set k, c | 0 <= k < |sels| && c in Nodes(sels[k].expr) :: c
    ensures r.Ok? <==> DeriveSchema(SchemaOf(base), sels).Ok?
    ensures r.Err? ==> r.error == DeriveSchema(SchemaOf(base), sels).error
    ensures r.Ok? ==> r.value == Select(base, sels, DeriveSchema(SchemaOf(base), sels).value)
    ensures r.Ok? ==> WellFormed(r.value)
    ensures r.Ok? ==> forall k :: 0 <= k < |sels| ==> Cached(sels[k].expr, SchemaOf(base))
  {
    var s := SchemaOf(base);
    var newFields: seq<string> := [];
    var newMapping: map<string, Type> := map[];
    var i := 0;
    while i < |sels|
      invariant 0 <= i <= |sels|
      invariant newFields == Names(sels[..i])
      invariant SelectTypes(sels[..i], s) == Ok(newMapping)
      invariant forall k :: 0 <= k < i ==> Cached(sels[k].expr, s)
    {
      SelectTypesStep(sels, s, i);
      newFields := newFields + [sels[i].name];
      var outcome := TypecheckSelection(sels, i, s);
      if outcome.Fail? {
        SelectTypesFails(sels, s, i, |sels|);
        assert sels[..|sels|] == sels;
        return Err(outcome.error);
      }
      newMapping := newMapping[sels[i].name := ResultType(sels[i].expr)];
      i := i + 1;
    }
    assert sels[..i] == sels;
    var schema :- NewSchema(newFields, newMapping);
    r := Ok(Select(base, sels, schema));
  }

  // ----- the pipeline -----

  /** Every row `Load` reads belongs to its schema. */
  lemma LoadConforms(lines: seq<string>, s: Schema)
    requires Valid(s)
    ensures AllConform(LoadFrom(lines, s, 1).rows, s)
  {
    var st := LoadFrom(lines, s, 1);
    forall k | 0 <= k < |st.rows| ensures Conforms(st.rows[k], s) {
      LoadFromRow(lines, s, 1, k);
      ParsedRowConforms(Split(lines[1 + k]), s);
    }
  }

  /** Every row `Select` projects belongs to the derived schema. */
  lemma SelectConforms(rows: seq<Row>, sels: seq<Selection>, base: Schema)
    requires DeriveSchema(base, sels).Ok? && AllConform(rows, base)
    ensures AllTypecheck(sels, base)
    ensures AllConform(SelectRows(rows, sels, base), DeriveSchema(base, sels).value)
  {
    DeriveSchemaShape(base, sels);
    var out := SelectRows(rows, sels, base);
    forall k | 0 <= k < |out| ensures Conforms(out[k], DeriveSchema(base, sels).value) {
      ProjectConforms(sels, rows[k], base);
    }
  }

  /** What construction guarantees of a transformation and all its bases. */
  predicate WellFormed(t: Transformation)
  {
    match t
    case Load(lines, s) => |lines| > 0 && NewSchema(Split(lines[0]), s.mapping) == Ok(s)
    case Filter(base, pred) => WellFormed(base) && Check(pred, SchemaOf(base)).Ok?
    case Select(base, sels, s) => WellFormed(base) && DeriveSchema(SchemaOf(base), sels) == Ok(s)
  }

  /** The schema of every constructed transformation satisfies the schema invariant. */
  lemma {:induction false} SchemaOfValid(t: Transformation)
    requires WellFormed(t)
    ensures Valid(SchemaOf(t))
  {
    match t
    case Load(_, _) =>
    case Filter(base, _) => SchemaOfValid(base);
    case Select(base, sels, _) => DeriveSchemaShape(SchemaOf(base), sels);
  }

  /**
   * `stream()` pulled to the end. Every row it yields belongs to the
   * transformation's schema: exactly its columns, each value null or of the
   * column's type.
   */
  function StreamOf(t: Transformation): (st: Stream)
    requires WellFormed(t)
    ensures AllConform(st.rows, SchemaOf(t))
    decreases t
  {
    SchemaOfValid(t);
    match t
    case Load(lines, s) =>
      LoadConforms(lines, s);
      LoadFrom(lines, s, 1)
    case Filter(base, pred) =>
      var b := StreamOf(base);
      Stream(FilterRows(b.rows, pred, SchemaOf(base)), b.failure)
    case Select(base, sels, s) =>
      var b := StreamOf(base);
      SelectConforms(b.rows, sels, SchemaOf(base));
      var out := SelectRows(b.rows, sels, SchemaOf(base));
      Stream(out, b.failure)
  }

  /**
   * `Filter`: exactly the base rows whose predicate is truthy, in base
   * order; the base's error, if any, still ends the stream.
   */
  lemma FilterStream(base: Transformation, pred: Expr)
    requires WellFormed(Filter(base, pred))
    ensures SchemaOf(Filter(base, pred)) == SchemaOf(base)
    ensures StreamOf(Filter(base, pred)).failure == StreamOf(base).failure
    ensures StreamOf(Filter(base, pred)).rows == FilterRows(StreamOf(base).rows, pred, SchemaOf(base))
  {
  }

  /** Row `k` of a projection binds each selection's name to its expression's value on base row `k`. */
  lemma SelectRowsAt(rows: seq<Row>, sels: seq<Selection>, s: Schema, k: nat, j: nat)
    requires AllTypecheck(sels, s) && AllConform(rows, s) && Distinct(Names(sels))
    requires k < |rows| && j < |sels|
    ensures Conforms(rows[k], s)
    ensures SelectRows(rows, sels, s)[k][sels[j].name] == Eval(sels[j].expr, rows[k], s)
  {
    var names := Names(sels);
    assert names[j] == sels[j].name;
    AssignAt(names, Evaluate(sels, rows[k], s), j);
  }

  /**
   * `Select`: its fields are the selection names, and it yields one
   * projected row per base row; the base's error, if any, still ends it.
   */
  lemma SelectStream(base: Transformation, sels: seq<Selection>, s: Schema)
    requires WellFormed(Select(base, sels, s))
    ensures s.fields == Names(sels) && Distinct(Names(sels)) && AllTypecheck(sels, SchemaOf(base))
    ensures StreamOf(Select(base, sels, s)).failure == StreamOf(base).failure
    ensures StreamOf(Select(base, sels, s)).rows == SelectRows(StreamOf(base).rows, sels, SchemaOf(base))
  {
    DeriveSchemaShape(SchemaOf(base), sels);
  }
}

=== FILE: values.dfy ===
/**
 * Column types, cell values, rows and the errors the engine raises.
 */
module Values {
  import opened Wrappers
  import opened Text

  /** The closed set of column types (`Type.Int`, `Type.String`, `Type.Bool`). */
  datatype Type = IntType | StringType | BoolType

  /** A tagged cell value; `Null` is Python's `None`, the missing value. */
  datatype Value = Int(i: int) | Str(s: string) | Bool(b: bool) | Null

  /** A row maps each column name to its value. */
  type Row = map<string, Value>

  /** A non-null value of the given type. */
  predicate HasType(v: Value, t: Type) {
    match t
    case IntType => v.Int?
    case StringType => v.Str?
    case BoolType => v.Bool?
  }

  /** A value a column of type `t` may hold: null or a value of that type. */
  predicate Fits(v: Value, t: Type) {
    v.Null? || HasType(v, t)
  }

  /** Python truthiness, as used by `if pred:` and `if element:`. */
  predicate Truthy(v: Value) {
    match v
    case Int(i) => i != 0
    case Str(s) => s != ""
    case Bool(b) => b
    case Null => false
  }

  /** The errors raised by schema validation, typechecking and streaming. */
  datatype Error =
    | UnmatchedColumn                         // a mapping key that is not a field
    | UntypedColumn(name: string)             // a field the mapping does not type
    | DuplicateColumn                         // fields and mapping differ in length
    | UnknownColumn(name: string)             // a Column name absent from the schema
    | LengthNeedsString(found: Type)
    | EqualNeedsSameTypes(left: Type, right: Type)
    | NotEqualNeedsSameTypes(left: Type, right: Type)
    | LessThanNeedsInts(left: Type, right: Type)
    | SumNeedsInt(found: Type)
    | MeanNeedsInt(found: Type)
    | NoHeader                                // the source has no first line
    | MissingToken(column: nat)               // a data line with too few tokens
    | NotAnInteger(token: string)
    | NotABoolean(token: string)

  /** `str(x)` for a cell, with null written as `NA`, as `Write` renders it. */
  function Render(v: Value): (r: string)
    ensures v.Int? ==> ParseInt(r) == Some(v.i)
    ensures !v.Str? ==> IsToken(r)
  {
    match v
    case Null => assert IsToken("NA"); "NA"
    case Int(i) => ParseRenderInt(i); RenderIntToken(i); RenderInt(i)
    case Str(s) => s
    case Bool(b) => if b then "True" else "False"
  }
}

=== FILE: wrappers.dfy ===
/** Failure-compatible wrappers used for the query engine's raised errors. */
module Wrappers {

  datatype Option<+T> = None | Some(value: T)

  /** A value or the error the source would raise instead of returning it. */
  datatype Result<+R, +E> = Ok(value: R) | Err(error: E) {
    predicate IsFailure() { Err? }

    function PropagateFailure<U>(): Result<U, E>
      requires Err?
    {
      Err(error)
    }

    function Extract(): R
      requires Ok?
    {
      value
    }
  }

  /** The outcome of a check that returns nothing when it passes. */
  datatype Outcome<+E> = Pass | Fail(error: E)
}

=== FILE: write.dfy ===
/**
 * The `Write` action: a header line of the field names, then one line per
 * row with each value rendered (`NA` for null), cells separated by tabs.
 * What `Write` produces, `Load` reads back.
 */
module Writing {
  import opened Wrappers
  import opened Text
  import opened Values
  import opened Schemas
  import opened Expressions
  import opened Transformations

  /** The lines written, and the error that interrupted the writing, if any. */
  datatype Output = Output(lines: seq<string>, failure: Option<Error>)

  /** A string value that survives the text format: one token, and not the null marker. */
  predicate PlainValue(v: Value) {
    v.Str? ==> IsToken(v.s) && v.s != "NA"
  }

  /** Every string in the row is plain. */
  predicate PlainRow(row: Row) {
    forall f :: f in row ==> PlainValue(row[f])
  }

  /** Every string in the rows is plain. */
  predicate AllPlain(rows: seq<Row>) {
    forall k :: 0 <= k < |rows| ==> PlainRow(rows[k])
  }

  /** The cells of one data line: each field's value in field order, `NA` for null. */
  function RenderRow(row: Row, fields: seq<string>): (cells: seq<string>)
    requires Elems(fields) <= row.Keys
    ensures |cells| == |fields|
  {
    seq(|fields|, k requires 0 <= k < |fields| => Render(row[fields[k]]))
  }

  /** The text `Write.compute` produces: the tab-joined header, then one tab-joined line per row. */
  function Dump(s: Schema, rows: seq<Row>): (lines: seq<string>)
    requires Valid(s) && AllConform(rows, s)
    ensures |lines| == |rows| + 1 && lines[0] == JoinTab(s.fields)
    ensures forall k :: 0 <= k < |rows| ==> lines[k + 1] == JoinTab(RenderRow(rows[k], s.fields))
  {
    assert forall k :: 0 <= k < |rows| ==> Elems(s.fields) <= rows[k].Keys;
    [JoinTab(s.fields)] + seq(|rows|, k requires 0 <= k < |rows| => JoinTab(RenderRow(rows[k], s.fields)))
  }

  /**
   * `Write.compute` on the base's schema and stream: the header first,
   * then a line per row pulled; an error in the stream stops the writing
   * after the lines already written.
   */
  method Write(s: Schema, st: Stream) returns (out: Output)
    requires Valid(s) && AllConform(st.rows, s)
    ensures out.lines == Dump(s, st.rows) && out.failure == st.failure
  {
    ghost var dump := Dump(s, st.rows);
    var lines := [JoinTab(s.fields)];
    for k := 0 to |st.rows|
      invariant lines == dump[..k + 1]
    {
      assert dump[..k + 2] == dump[..k + 1] + [dump[k + 1]];
      lines := lines + [JoinTab(RenderRow(st.rows[k], s.fields))];
    }
    assert lines == dump;
    out := Output(lines, st.failure);
  }

  // ----- every string in every stream is plain -----

  /** Parsing a line of tokens yields only plain strings: a `NA` token is read as null. */
  lemma {:induction false} ParsedRowPlain(tokens: seq<string>, s: Schema, n: nat)
    requires n <= |s.fields| == |s.types|
    requires forall k :: 0 <= k < |tokens| ==> IsToken(tokens[k])
    requires ParseRow(tokens, s, n).Ok?
    ensures PlainRow(ParseRow(tokens, s, n).value)
    decreases n
  {
    if n > 0 {
      ParsedRowPlain(tokens, s, n - 1);
      var cell := CellAt(tokens, s, n - 1);
      assert cell.Ok?;
      assert PlainValue(cell.value);
    }
  }

  /** Only a column reference evaluates to a string, and it returns the row's own value. */
  lemma EvalPlain(e: Expr, row: Row, s: Schema)
    requires Check(e, s).Ok? && Conforms(row, s) && PlainRow(row)
    ensures PlainValue(Eval(e, row, s))
  {
    match e
    case Column(c) =>
    case Length(_) =>
    case Equal(_, _) =>
    case NotEqual(_, _) =>
    case LessThan(_, _) =>
  }

  /** Assigning plain values gives a plain row. */
  lemma {:induction false} AssignPlain(names: seq<string>, values: seq<Value>)
    requires |names| == |values|
    requires forall k :: 0 <= k < |values| ==> PlainValue(values[k])
    ensures PlainRow(Assign(names, values))
    decreases |names|
  {
    if |names| > 0 {
      AssignPlain(names[..|names| - 1], values[..|values| - 1]);
    }
  }

  /** `Load` yields only plain strings. */
  lemma LoadPlain(lines: seq<string>, s: Schema)
    requires Valid(s)
    ensures AllPlain(LoadFrom(lines, s, 1).rows)
  {
    var st := LoadFrom(lines, s, 1);
    forall k | 0 <= k < |st.rows| ensures PlainRow(st.rows[k]) {
      LoadFromRow(lines, s, 1, k);
      ParsedRowPlain(Split(lines[1 + k]), s, |s.fields|);
    }
  }

  /** `Filter` passes on only rows of its base. */
  lemma FilterPlain(rows: seq<Row>, pred: Expr, s: Schema)
    requires Check(pred, s).Ok? && AllConform(rows, s) && AllPlain(rows)
    ensures AllPlain(FilterRows(rows, pred, s))
  {
    var out := FilterRows(rows, pred, s);
    forall k | 0 <= k < |out| ensures PlainRow(out[k]) {
      assert out[k] in rows;
    }
  }

  /** `Select` builds its rows from expression values, which are plain on plain rows. */
  lemma SelectPlain(rows: seq<Row>, sels: seq<Selection>, s: Schema)
    requires AllTypecheck(sels, s) && AllConform(rows, s) && AllPlain(rows)
    ensures AllPlain(SelectRows(rows, sels, s))
  {
    forall k | 0 <= k < |rows| ensures PlainRow(SelectRows(rows, sels, s)[k]) {
      var values := Evaluate(sels, rows[k], s);
      forall j | 0 <= j < |values| ensures PlainValue(values[j]) {
        EvalPlain(sels[j].expr, rows[k], s);
      }
      AssignPlain(Names(sels), values);
    }
  }

  /** Every string a constructed transformation yields is plain. */
  lemma {:induction false} StreamPlain(t: Transformation)
    requires WellFormed(t)
    ensures AllPlain(StreamOf(t).rows)
    decreases t
  {
    match t
    case Load(lines, s) =>
      SchemaOfValid(t);
      LoadPlain(lines, s);
    case Filter(base, pred) =>
      StreamPlain(base);
      FilterPlain(StreamOf(base).rows, pred, SchemaOf(base));
    case Select(base, sels, s) =>
      StreamPlain(base);
      SelectStream(base, sels, s);
      SelectPlain(StreamOf(base).rows, sels, SchemaOf(base));
  }

  // ----- Write, then Load -----

  /** Each rendered cell of a conforming, plain row is a token that reads back as its value. */
  lemma RenderedCells(row: Row, s: Schema, k: nat)
    requires Valid(s) && Conforms(row, s) && PlainRow(row) && k < |s.fields|
    ensures IsToken(RenderRow(row, s.fields)[k])
    ensures CellAt(RenderRow(row, s.fields), s, k) == Ok(row[s.fields[k]])
  {
    var v := row[s.fields[k]];
    if v.Null? {
      assert IsToken("NA");
    } else {
      ParseRenderCell(v, s.types[k]);
    }
  }

  /** A line whose every cell reads back as the row's value for that column parses to the row. */
  lemma ParseCellsOfRow(row: Row, s: Schema, cells: seq<string>)
    requires Valid(s) && Conforms(row, s)
    requires forall k :: 0 <= k < |s.fields| ==> CellAt(cells, s, k) == Ok(row[s.fields[k]])
    ensures ParseRow(cells, s, |s.fields|) == Ok(row)
  {
    var n := |s.fields|;
    ParseRowOk(cells, s, n);
    ParseRowKeys(cells, s, n);
    assert s.fields[..n] == s.fields;
    var parsed := ParseRow(cells, s, n).value;
    assert parsed.Keys == row.Keys;
    forall f | f in row ensures parsed[f] == row[f] {
      var k :| 0 <= k < n && s.fields[k] == f;
      ParseRowAt(cells, s, n, k);
      assert CellAt(cells, s, k) == Ok(row[f]);
    }
    assert parsed == row;
  }

  /** A conforming row with plain strings is parsed back from its rendered line. */
  lemma RowRoundTrip(row: Row, s: Schema)
    requires Valid(s) && Conforms(row, s) && PlainRow(row)
    ensures ParseRow(Split(JoinTab(RenderRow(row, s.fields))), s, |s.fields|) == Ok(row)
  {
    var cells := RenderRow(row, s.fields);
    forall k | 0 <= k < |s.fields|
      ensures IsToken(cells[k]) && CellAt(cells, s, k) == Ok(row[s.fields[k]])
    {
      RenderedCells(row, s, k);
    }
    SplitJoinTab(cells);
    ParseCellsOfRow(row, s, cells);
  }

  /** Lines that each read back as a row load, from line `i` on, as the rows from `i - 1` on. */
  lemma {:induction false} LoadReadable(lines: seq<string>, s: Schema, rows: seq<Row>, i: nat)
    requires Valid(s) && |lines| == |rows| + 1 && 1 <= i <= |lines|
    requires forall k :: 0 <= k < |rows| ==> ParseRow(Split(lines[k + 1]), s, |s.fields|) == Ok(rows[k])
    ensures LoadFrom(lines, s, i) == Stream(rows[i - 1..], None)
    decreases |lines| - i
  {
    if i < |lines| {
      assert ParseRow(Split(lines[(i - 1) + 1]), s, |s.fields|) == Ok(rows[i - 1]);
      LoadReadable(lines, s, rows, i + 1);
      assert rows[i - 1..] == [rows[i - 1]] + rows[i..];
    }
  }

  /**
   * Round trip: `Load` on what `Write` wrote, with the same mapping, is
   * accepted with the same schema and yields exactly the rows written, with
   * no error (when the stream failed, the rows before the failure). Field
   * names must be tokens, as a header line can hold no other names.
   */
  lemma WriteLoadRoundTrip(t: Transformation)
    requires WellFormed(t)
    requires forall k :: 0 <= k < |SchemaOf(t).fields| ==> IsToken(SchemaOf(t).fields[k])
    ensures Valid(SchemaOf(t))
    ensures NewLoad(Dump(SchemaOf(t), StreamOf(t).rows), SchemaOf(t).mapping)
      == Ok(Load(Dump(SchemaOf(t), StreamOf(t).rows), SchemaOf(t)))
    ensures StreamOf(Load(Dump(SchemaOf(t), StreamOf(t).rows), SchemaOf(t)))
      == Stream(StreamOf(t).rows, None)
  {
    var s := SchemaOf(t);
    var rows := StreamOf(t).rows;
    SchemaOfValid(t);
    StreamPlain(t);
    var lines := Dump(s, rows);
    SplitJoinTab(s.fields);
    RebuildSchema(s);
    forall k | 0 <= k < |rows| ensures ParseRow(Split(lines[k + 1]), s, |s.fields|) == Ok(rows[k]) {
      RowRoundTrip(rows[k], s);
    }
    LoadReadable(lines, s, rows, 1);
    assert rows[0..] == rows;
  }
}
